=== FILE: README.md ===
# Lead discovery and enrichment: a Dafny model

This project models the logic of a small lead-generation web application.
The application does four things:

- It discovers businesses for an industry and a location through a
  maps-grounded AI call.
- It turns the grounding chunks of that answer into deduplicated leads.
- It enriches each lead through a web-search AI call, whose answer contains
  a JSON block with website, phone, email and owner.
- It exports the collection as CSV.

The model covers the pure logic of these steps. The remote calls,
`JSON.parse` and `crypto.randomUUID` are inputs to the model.

Modules:

- `Wrappers`: `Option` and `Result`.
- `Types` (types.ts): the `Lead` record, and the `LeadStatus` enum and its string values.
- `Text`: `indexOf`, `lastIndexOf`, `startsWith`, and the leftmost-lazy regular-expression match that the extraction uses.
- `Discovery` (services/gemini.ts): the fold over the grounding chunks, dedup by place id with `===`, and a declarative reference definition the fold is proved equal to.
- `Enrichment` (services/gemini.ts): the three-tier JSON extraction, the fallback record, the merge with the sentinel `"vacío"`, and the failure branch.
- `Csv`: quote doubling and `join`, plus a strict CSV reader that the export is proved to round-trip through.
- `Export` (App.tsx): the header and rows of `handleExportCSV`, and the round trip through the reader.
- `Orchestrator` (App.tsx): search, single-lead enrichment (optimistic Enriching step, then write-back by id), and bulk enrichment in sequential batches of three.
- `ResultsTable` (components/ResultsTable.tsx): the empty state, the badges, the pending count, the bulk button, the row actions and the website href.

Abstractions:

- Remote calls. A discovery call is `CallFailed` or `Responded(response)`. An enrichment call is `Threw` or `Replied(text)`.
- `JSON.parse` is a function parameter from the extracted string to `Unparseable`, `JsonNull` or `JsonValue(patch)`. In a patch, a missing key is `None`.
  - `JsonNull` makes the field reads at services/gemini.ts:131-134 throw, so the lead ends Failed.
  - A non-object value has none of the four keys.
- `crypto.randomUUID` is a supply `ids`: the k-th lead pushed takes `ids[k]`.
- Bulk enrichment is sequential. Each single-lead enrichment is one atomic step that reads the snapshot captured when the bulk run started. Replies come from a function of the lead id.

In five places the code does something a reader might not expect. The model follows the code:

- **The empty string is not the "not found" sentinel.** One might expect a prior website to survive an answer of `""`. In the code, `""` overwrites website and phone (`Enrichment.EmptyStringOverwrites`).
- **Nothing parsed means everything blanked.** When nothing is extracted or parsed, the all-`""` fallback record is merged. All four contact fields become `""`, but the status is still Completed (`Enrichment.ParseFailureBlanksContacts`).
- **Not every CSV field is quoted.** One might expect every field to be quoted. The code quotes six fields and writes the status and the source URL raw, so a comma in a source URL splits the row into nine fields (`Export.CommaInSourceUrlSplitsRow`).
- **An empty collection exports nothing.** One might expect a header-only file. The code returns without exporting (`Export.ExportCsv`).
- **The pending count leaves out Failed leads.** It counts only Discovered leads, although bulk enrichment also picks up Failed ones. When every pending lead has failed, the bulk button is hidden (`ResultsTable.OnlyFailedHidesBulkButton`).

## Model

| member | source | states |
|---|---|---|
| Types.ParseStatus | types.ts:20-25 | a string names an enum member exactly when it is one of the four status strings, and the member found carries that string |
| Types.StatusValueBijection | types.ts:10-25 | the enum-to-string map is a bijection onto the four `Lead.status` strings: parsing a value gives its member back, and distinct members have distinct values |
| Text.LazyMatchFrom | services/gemini.ts:117 | the match `String.prototype.match` reports for `open([\s\S]*?)close`: it starts at the leftmost index where the pattern can match at all, and its group ends at the first `close` after the opening delimiter |
| Discovery.ChunksOf | services/gemini.ts:35-41 | chunks are read only through the first candidate's grounding metadata; any missing link gives none, and when every link is present the result is exactly that candidate's chunks |
| Discovery.NewLead | services/gemini.ts:49-60 | the pushed lead takes the id, the title, the place id and the uri; the address or "Dirección no disponible" when it is missing or empty; with a truthy title it is fresh |
| Discovery.AddChunk | services/gemini.ts:43-61 | one callback appends at most one lead and keeps the earlier ones; it appends exactly when the chunk has a place with a truthy title whose place id no lead carries yet, and the new lead is built from that place |
| Discovery.FindByPlaceId | services/gemini.ts:46 | the lead found carries the place id, and nothing is found exactly when no lead carries it (absent ids compare equal) |
| Discovery.CollectLeads | services/gemini.ts:42-63 | the k-th lead takes the k-th fresh id; every lead is fresh (named, addressed, Discovered, contact fields `""`, no notes); no two leads share a place id; there are at most as many leads as chunks |
| Discovery.FindBusinesses | services/gemini.ts:34-71 | a failed call is rethrown; an answer without candidates or chunks gives an empty list, not an error; otherwise the result is exactly the fold over the first candidate's chunks |
| Discovery.AtMostOneWithoutPlaceId | services/gemini.ts:46-48 | because `===` equates two absent place ids, at most one lead lacks a place id |
| Discovery.CollectMatchesFirstOccurrences | services/gemini.ts:42-63 | the fold equals the reference definition: lead k is built from the k-th usable chunk whose place id no earlier usable chunk carries, in chunk order |
| Discovery.FirstOccurrencesCoverUsed | services/gemini.ts:43-48 | the kept places carry exactly the place ids of the usable chunks; unusable chunks take no part in dedup |
| Discovery.OnePerUsedPlaceId | services/gemini.ts:43-48 | every usable chunk's place id is carried by some output lead |
| Discovery.FirstOccurrenceWins | services/gemini.ts:46-60 | the lead with a chunk's place id takes the first such chunk's title, address (or "Dirección no disponible") and uri |
| Enrichment.BraceMatch | services/gemini.ts:117 | the greedy brace pattern matches exactly when some `{` precedes some `}`; the match runs from the first `{` of the text to the last `}` |
| Enrichment.ExtractJson | services/gemini.ts:117-123 | nothing is handed to the parser exactly when neither a fenced block nor a brace pair occurs; what is handed on is never empty |
| Enrichment.FencedJsonExtracted | services/gemini.ts:117-123 | an answer in the requested format (json fence, body, closing fence) hands exactly the body to the parser; an empty body hands on the whole fenced match |
| Enrichment.BareObjectExtracted | services/gemini.ts:117-123 | an answer with no fence hands on the text from its first `{` to its last `}` |
| Enrichment.GroupOrMatch | services/gemini.ts:123 | `jsonMatch[1] \|\| jsonMatch[0]`: the group when it is non-empty, otherwise the whole match; empty only when both are |
| Enrichment.FencedBlockExtracted | services/gemini.ts:117-123 | when the json-fence pattern finds nothing, an untagged fenced block wins over the brace match and its body is handed on, braces included |
| Enrichment.PatchFor | services/gemini.ts:119-127 | no match, or a parse failure, gives the all-`""` record; a parsed value gives exactly its fields; the field reads fail exactly when the parser returned `null` |
| Enrichment.Merge | services/gemini.ts:129-136 | website and phone take the parsed value unless it is "vacío" (then the prior value stays); email and owner take the parsed value, or `""` for "vacío", whatever the lead held; identity fields and notes are kept; status becomes Completed |
| Enrichment.FailedLead | services/gemini.ts:138-144 | the lead becomes Failed with the failure note; nothing else changes |
| Enrichment.EnrichLead | services/gemini.ts:114-145 | the lead fails exactly when the call threw or the field reads failed, and then changes only status and notes; otherwise it is the merge of the record read from the answer |
| Enrichment.FencedAnswerMerged | services/gemini.ts:114-136 | an answer in the requested format whose body parses to an object completes the lead with exactly the merge of that object |
| Enrichment.MergeIdempotent | services/gemini.ts:129-136 | merging the same answer twice equals merging it once |
| Enrichment.EmailOwnerIgnorePrior | services/gemini.ts:131-134 | email and owner do not depend on the prior lead; website and phone depend on it only through the sentinel |
| Enrichment.ParseFailureBlanksContacts | services/gemini.ts:117-136 | no match or no parse: all four contact fields become `""`, status Completed, notes kept |
| Enrichment.EmptyStringOverwrites | services/gemini.ts:131 | an answer of `""` erases a prior non-empty website, and an answer of `""` for phone makes the phone `""` |
| Csv.Escape | App.tsx:22-27 | doubling quotes never shortens a value and leaves a quote-free value as it is |
| Csv.ReadQuotedEscape | App.tsx:22-27 | unescaping a doubled-quote field recovers the original value and stops at the closing quote |
| Csv.ReadRecordEncoded | App.tsx:21-30 | a comma-joined line of readable cells reads back as the cells' values |
| Csv.ReadDocumentEncoded | App.tsx:19-31 | lines joined with line breaks read back as the rows' values |
| Export.Cells | App.tsx:21-29 | one cell per header; the first six are quoted, the status and the source URL are raw |
| Export.CellsHoldFields | App.tsx:21-29 | the cells hold the lead's name, address, phone, email, website, owner (absent ones as `""`), status value and source URL, in that order |
| Export.RowReadsBack | App.tsx:21-30 | unless its raw source URL holds a comma or a line break, or starts with a quote, a lead's line reads back as exactly its eight fields |
| Export.ExportCsv | App.tsx:15-31 | an empty collection exports nothing; otherwise the text starts with the header line and a line break |
| Export.ExportRoundTrip | App.tsx:16-31 | reading the export back gives the header and, for every lead, its eight fields with quotes restored, provided no source URL holds a comma, a line break or a leading quote |
| Export.CommaInSourceUrlSplitsRow | App.tsx:28-29 | a source URL with a comma reads back as two fields, so the row has nine fields |
| Orchestrator.BeginSearch | App.tsx:45-47 | a search first empties the collection, clears the banner and sets the busy flag |
| Orchestrator.FinishSearch | App.tsx:49-60 | the busy flag is cleared; a failure leaves the collection as it was and sets the error banner; a result replaces the collection, with the informational banner exactly when it is empty |
| Orchestrator.Search | App.tsx:44-61 | afterwards the flag is cleared; a failure leaves the collection empty with the error banner; an empty result sets the informational banner; with distinct fresh ids the leads have distinct ids |
| Orchestrator.FindById | App.tsx:65 | the lead found is the first one with the id, nothing is found exactly when no lead has it, and with distinct ids the lead found is the only one |
| Orchestrator.SetStatusById | App.tsx:69 | only the leads with the id change, and only in status; length, order and ids are kept |
| Orchestrator.ReplaceById | App.tsx:73 | only the entries with the id are replaced; length and order are kept |
| Orchestrator.WriteBack | App.tsx:72-76 | a result replaces the entries with the id; a rejection marks them Failed; every other entry is kept |
| Orchestrator.EnrichOne | App.tsx:64-77 | an id absent from the snapshot changes nothing; otherwise only that lead changes, to its enrichment, which is Completed or Failed |
| Orchestrator.ResultSupersedesOptimistic | App.tsx:69-73 | writing a result back over the optimistic Enriching step equals replacing the original lead |
| Orchestrator.StaleWriteBackIgnored | App.tsx:73-75 | a write-back for an id no longer in the collection leaves it unchanged |
| Orchestrator.EnrichOneCommutes | App.tsx:89 | enrichments of two different leads give the same collection in either order |
| Orchestrator.SelectPending | App.tsx:82 | the selection holds only Discovered or Failed leads of the collection, and every such lead |
| Orchestrator.SelectPendingAppend | App.tsx:82 | selecting from a concatenation concatenates the selections, so the selection keeps collection order and multiplicity |
| Orchestrator.BatchesFlatten | App.tsx:86-90 | the batches concatenate back to the selection |
| Orchestrator.BatchesCount | App.tsx:86-90 | there are `ceil(n / 3)` batches |
| Orchestrator.BatchesSizes | App.tsx:86-90 | no batch is empty or larger than the batch size, and all but the last are full |
| Orchestrator.SevenMakeThreeThreeOne | App.tsx:86-90 | seven pending leads make batches of sizes 3, 3 and 1 |
| Orchestrator.EnrichBatch | App.tsx:88-89 | running one batch enriches exactly its leads from the snapshot |
| Orchestrator.RunBatches | App.tsx:87-90 | the loop runs exactly the batches of the selection and enriches every selected lead |
| Orchestrator.EnrichAll | App.tsx:80-93 | afterwards the flag is cleared; every selected lead is its enrichment (Completed or Failed); every other lead is untouched; the batches run are those of the selection |
| ResultsTable.BadgeLabel | components/ResultsTable.tsx:25-36 | each status shows one of the four Spanish labels, never its stored value |
| ResultsTable.BadgeRoundTrip | components/ResultsTable.tsx:25-36 | every status has a badge, and the badge label gives the status back |
| ResultsTable.BadgeInjective | components/ResultsTable.tsx:25-36 | distinct statuses get distinct badges |
| ResultsTable.PendingCount | components/ResultsTable.tsx:38 | the count is zero exactly when no lead is Discovered |
| ResultsTable.PendingCountMissesFailed | components/ResultsTable.tsx:38 | the count plus the Failed leads is the size of the bulk selection, so it equals the selection only when no lead has failed |
| ResultsTable.BulkButtonFor | components/ResultsTable.tsx:44-53 | the bulk button is shown exactly when some lead is Discovered, is disabled exactly while processing, and shows the pending count |
| ResultsTable.OnlyFailedHidesBulkButton | components/ResultsTable.tsx:44 | with only Failed leads pending, the button is hidden although the bulk run would select them |
| ResultsTable.ActionFor | components/ResultsTable.tsx:122-139 | Investigate exactly for Discovered, Retry exactly for Failed, none for Enriching or Completed; disabled exactly while processing |
| ResultsTable.ActionRowsAreSelection | components/ResultsTable.tsx:122-139 | the rows offering an action, in order, are exactly the leads bulk enrichment selects |
| ResultsTable.WebsiteHref | components/ResultsTable.tsx:99-100 | a link exists exactly for a non-empty website; the href starts with `http`, ends with the stored value, is that value when it already starts with `http`, and is `https://` followed by it otherwise |
| ResultsTable.WebsiteHrefIdempotent | components/ResultsTable.tsx:100 | normalising an href a second time changes nothing |
| ResultsTable.Render | components/ResultsTable.tsx:13-23 | the empty state is shown exactly for an empty collection; otherwise there is one row per lead, in order |

## Left out

- The remote AI calls: the prompts, model names, tools and coordinates (services/gemini.ts:5-32, 78-112). They are inputs: a discovery call that failed or answered, and an enrichment call that threw or answered with an optional text.
- `JSON.parse`: its internals are a function parameter. A field holding a non-string JSON value (a number, an object) is not modelled. A patch field is a string or absent.
- `crypto.randomUUID`: a supply of ids. Distinct ids are a precondition of the uniqueness results, not a guarantee of the model.
- `Promise.all` interleaving and React's stale closures. Bulk enrichment runs each single-lead enrichment atomically, in batch order. Each reads the snapshot the bulk run captured.
- The rejection branch of `handleEnrichLead` (App.tsx:74-75): `enrichLead` catches every error, so the branch cannot be reached from the model's enrichment. `Orchestrator.WriteBack` still models it, and `Orchestrator.StaleWriteBackIgnored` covers it.
- Orchestrator.EnrichAll: requires distinct lead ids, which the ids from `crypto.randomUUID` provide; with a repeated id the bulk run would write one lead's result into every lead with that id, which is not modelled. Its postcondition states only that the busy flag is cleared at the end. The flag's value during the run is not part of the contract.
- The download in `handleExportCSV` (App.tsx:33-40): the blob, the object URL, the link click and the dated file name are I/O.
- Logging to the console.
- Rendering: markup, CSS classes, icons, and the placeholder texts for a missing phone, email or owner.
- `components/SearchForm.tsx`: a form whose only logic is a trim guard on its two inputs. The search step accepts any parameters.
- `SearchParams` (types.ts:15-18): the industry and location reach only the remote discovery call, which is an input of the model, so the record is not modelled.

=== FILE: csv.dfy ===
/** Comma-separated text: the quoting the export applies to a field,
    `Array.prototype.join`, and a strict reader for the format (quoted
    fields with doubled quotes, raw fields up to a comma or line break,
    records separated by `\n`) against which the export is proved to
    round-trip. */
module Csv {
  import opened Wrappers
  import opened Text

  /** `s.replace(/"/g, '""')`: every quote doubled. */
  function Escape(s: string): (r: string)
    ensures |r| >= |s|
    ensures Lacks(s, '"') ==> r == s
  {
    if s == [] then []
    else (if s[0] == '"' then "\"\"" else [s[0]]) + Escape(s[1..])
  }

  /** `Array.prototype.join`. */
  function Join(parts: seq<string>, sep: string): string
  {
    if |parts| == 0 then ""
    else if |parts| == 1 then parts[0]
    else parts[0] + sep + Join(parts[1..], sep)
  }

  /** A field as written: quoted (quotes doubled) or raw (as is). */
  datatype Cell = Quoted(value: string) | Raw(value: string)

  /** The text a cell is written as. */
  function Encode(c: Cell): string
  {
    match c
    case Quoted(v) => "\"" + Escape(v) + "\""
    case Raw(v) => v
  }

  function EncodeAll(cells: seq<Cell>): (r: seq<string>)
    ensures |r| == |cells|
    ensures forall i :: 0 <= i < |cells| ==> r[i] == Encode(cells[i])
  {
    if cells == [] then [] else [Encode(cells[0])] + EncodeAll(cells[1..])
  }

  function Values(cells: seq<Cell>): (r: seq<string>)
    ensures |r| == |cells|
    ensures forall i :: 0 <= i < |cells| ==> r[i] == cells[i].value
  {
    if cells == [] then [] else [cells[0].value] + Values(cells[1..])
  }

  /** A cell that reads back as itself: any quoted value, or a raw value
      with no comma, no line break and no leading quote. */
  predicate Readable(c: Cell)
  {
    c.Raw? ==> Lacks(c.value, ',') && Lacks(c.value, '\n') && (c.value == [] || c.value[0] != '"')
  }

  /** Every cell of a record is readable. */
  predicate AllReadable(cells: seq<Cell>)
  {
    forall j :: 0 <= j < |cells| ==> Readable(cells[j])
  }

  // ---------------------------------------------------------------------
  // The reader.

  /** The body of a quoted field, after its opening quote: the value with
      doubled quotes collapsed, and the input after the closing quote;
      `None` when the closing quote is missing. */
  function ReadQuoted(s: string): (r: Option<(string, string)>)
    ensures r.Some? ==> |r.value.1| < |s|
  {
    if s == [] then None
    else if s[0] == '"' then
      if |s| > 1 && s[1] == '"' then
        match ReadQuoted(s[2..])
        case None => None
        case Some((v, rest)) => Some(("\"" + v, rest))
      else Some(("", s[1..]))
    else
      match ReadQuoted(s[1..])
      case None => None
      case Some((v, rest)) => Some(([s[0]] + v, rest))
  }

  /** A raw field: everything up to the next comma or line break. */
  function ReadRaw(s: string): (r: (string, string))
    ensures r.0 + r.1 == s
    ensures Lacks(r.0, ',') && Lacks(r.0, '\n')
    ensures r.1 == [] || r.1[0] == ',' || r.1[0] == '\n'
  {
    if s == [] || s[0] == ',' || s[0] == '\n' then ("", s)
    else
      var (v, rest) := ReadRaw(s[1..]);
      ([s[0]] + v, rest)
  }

  /** One field: quoted if it starts with a quote, raw otherwise. */
  function ReadField(s: string): (r: Option<(string, string)>)
    ensures r.Some? ==> |r.value.1| <= |s|
  {
    if s != [] && s[0] == '"' then ReadQuoted(s[1..]) else Some(ReadRaw(s))
  }

  /** One record: its fields, the input after it, and whether a line break
      ended it (so that another record follows). */
  function ReadRecord(s: string): (r: Option<(seq<string>, string, bool)>)
    decreases |s|
    ensures r.Some? ==> |r.value.0| > 0
    ensures r.Some? && r.value.2 ==> |r.value.1| < |s|
  {
    match ReadField(s)
    case None => None
    case Some((v, rest)) =>
      if rest == [] then Some(([v], [], false))
      else if rest[0] == '\n' then Some(([v], rest[1..], true))
      else if rest[0] == ',' then
        match ReadRecord(rest[1..])
        case None => None
        case Some((vs, after, more)) => Some(([v] + vs, after, more))
      else None
  }

  /** A whole document: its records in order. */
  function ReadDocument(s: string): (r: Option<seq<seq<string>>>)
    decreases |s|
    ensures r.Some? ==> |r.value| > 0
  {
    match ReadRecord(s)
    case None => None
    case Some((fields, rest, more)) =>
      if more then
        match ReadDocument(rest)
        case None => None
        case Some(records) => Some([fields] + records)
      else Some([fields])
  }

  // ---------------------------------------------------------------------
  // Round trips.

  /** Unescaping inverts `Escape`: the reader stops at the closing quote
      and recovers the original value. */
  lemma {:induction false} ReadQuotedEscape(s: string, t: string)
    requires t == [] || t[0] != '"'
    ensures ReadQuoted(Escape(s) + "\"" + t) == Some((s, t))
    decreases |s|
  {
    var x := Escape(s) + "\"" + t;
    if s == [] {
      assert x == "\"" + t;
      DropPrefix("\"", t);
      assert |x| == 1 || x[1] != '"';
    } else {
      ReadQuotedEscape(s[1..], t);
      var rest := Escape(s[1..]);
      var tail := rest + "\"" + t;
      if s[0] == '"' {
        assert Escape(s) == "\"\"" + rest;
        Regroup("\"\"", rest, "\"", t);
        DropPrefix("\"\"", tail);
        assert x[0] == '"' && x[1] == '"';
        assert "\"" + s[1..] == s;
      } else {
        assert Escape(s) == [s[0]] + rest;
        Regroup([s[0]], rest, "\"", t);
        DropPrefix([s[0]], tail);
        assert x[0] != '"';
        assert [s[0]] + s[1..] == s;
      }
    }
  }

  /** Dropping a prefix leaves the rest. */
  lemma {:induction false} DropPrefix(a: string, b: string)
    ensures (a + b)[|a|..] == b
  {
  }

  /** A raw value without commas or line breaks reads back as itself. */
  lemma {:induction false} ReadRawPlain(v: string, t: string)
    requires Lacks(v, ',') && Lacks(v, '\n')
    requires t == [] || t[0] == ',' || t[0] == '\n'
    ensures ReadRaw(v + t) == (v, t)
    decreases |v|
  {
    if v == [] {
      assert v + t == t;
    } else {
      ReadRawPlain(v[1..], t);
      assert (v + t)[1..] == v[1..] + t;
      assert [v[0]] + v[1..] == v;
    }
  }

  /** A quoted cell, followed by a separator or the end, reads back as its value. */
  lemma {:induction false} ReadFieldQuoted(v: string, t: string)
    requires t == [] || t[0] == ',' || t[0] == '\n'
    ensures ReadField(Encode(Quoted(v)) + t) == Some((v, t))
  {
    var y := Escape(v) + "\"" + t;
    ReadQuotedEscape(v, t);
    QuoteThen(y);
    Regroup("\"", Escape(v), "\"", t);
  }

  /** Regrouping a concatenation of four strings. */
  lemma {:induction false} Regroup(a: string, b: string, c: string, d: string)
    ensures a + b + c + d == a + (b + c + d)
  {
  }

  /** A field that opens with a quote is read by `ReadQuoted` from the next character. */
  lemma {:induction false} QuoteThen(y: string)
    ensures ReadField(['"'] + y) == ReadQuoted(y)
  {
    assert (['"'] + y)[1..] == y;
  }

  /** A readable raw cell, followed by a separator or the end, reads back as its value. */
  lemma {:induction false} ReadFieldRaw(v: string, t: string)
    requires Readable(Raw(v))
    requires t == [] || t[0] == ',' || t[0] == '\n'
    ensures ReadField(Encode(Raw(v)) + t) == Some((v, t))
  {
    var x := v + t;
    if v == [] {
      assert x == t;
    } else {
      assert x[0] == v[0];
    }
    assert x == [] || x[0] != '"';
    ReadRawPlain(v, t);
  }

  /** A readable cell, followed by a separator or the end, reads back as its value. */
  lemma {:induction false} ReadFieldEncoded(c: Cell, t: string)
    requires Readable(c)
    requires t == [] || t[0] == ',' || t[0] == '\n'
    ensures ReadField(Encode(c) + t) == Some((c.value, t))
  {
    match c
    case Quoted(v) => ReadFieldQuoted(v, t);
    case Raw(v) => ReadFieldRaw(v, t);
  }

  /** A record of readable cells, followed by the end or a line break, reads
      back as its values. */
  lemma {:induction false} ReadRecordEncoded(cells: seq<Cell>, t: string)
    requires |cells| > 0 && AllReadable(cells)
    requires t == [] || t[0] == '\n'
    ensures ReadRecord(Join(EncodeAll(cells), ",") + t)
         == Some((Values(cells), if t == [] then [] else t[1..], t != []))
    decreases |cells|
  {
    var parts := EncodeAll(cells);
    if |cells| == 1 {
      ReadFieldEncoded(cells[0], t);
      assert Join(parts, ",") == Encode(cells[0]);
      assert Values(cells) == [cells[0].value];
      if t != [] {
        assert t[0] == '\n';
      }
    } else {
      var tail := Join(EncodeAll(cells[1..]), ",") + t;
      assert parts[1..] == EncodeAll(cells[1..]);
      assert Join(parts, ",") + t == Encode(cells[0]) + ("," + tail);
      ReadFieldEncoded(cells[0], "," + tail);
      ReadRecordEncoded(cells[1..], t);
      assert ("," + tail)[1..] == tail;
      assert [cells[0].value] + Values(cells[1..]) == Values(cells);
    }
  }

  /** The lines of a document of cell rows. */
  function Lines(rows: seq<seq<Cell>>): (r: seq<string>)
    ensures |r| == |rows|
    ensures forall i :: 0 <= i < |rows| ==> r[i] == Join(EncodeAll(rows[i]), ",")
  {
    if rows == [] then [] else [Join(EncodeAll(rows[0]), ",")] + Lines(rows[1..])
  }

  /** The values of a document of cell rows. */
  function ValueRows(rows: seq<seq<Cell>>): (r: seq<seq<string>>)
    ensures |r| == |rows|
    ensures forall i :: 0 <= i < |rows| ==> r[i] == Values(rows[i])
  {
    if rows == [] then [] else [Values(rows[0])] + ValueRows(rows[1..])
  }

  /** Encoding distributes over concatenation. */
  lemma {:induction false} EncodeAllAppend(a: seq<Cell>, b: seq<Cell>)
    ensures EncodeAll(a + b) == EncodeAll(a) + EncodeAll(b)
  {
    var l := EncodeAll(a + b);
    var r := EncodeAll(a) + EncodeAll(b);
    assert |l| == |r|;
    forall j | 0 <= j < |l| ensures l[j] == r[j] {
      if j < |a| { assert (a + b)[j] == a[j]; } else { assert (a + b)[j] == b[j - |a|]; }
    }
  }

  /** The lines of a row followed by more rows. */
  lemma {:induction false} LinesCons(row: seq<Cell>, rows: seq<seq<Cell>>)
    ensures Lines([row] + rows) == [Join(EncodeAll(row), ",")] + Lines(rows)
  {
    assert ([row] + rows)[1..] == rows;
  }

  /** The values of a row followed by more rows. */
  lemma {:induction false} ValueRowsCons(row: seq<Cell>, rows: seq<seq<Cell>>)
    ensures ValueRows([row] + rows) == [Values(row)] + ValueRows(rows)
  {
    assert ([row] + rows)[1..] == rows;
  }

  /** Rows of readable cells joined with line breaks read back as their values. */
  lemma {:induction false} ReadDocumentEncoded(rows: seq<seq<Cell>>)
    requires |rows| > 0
    requires forall i :: 0 <= i < |rows| ==> |rows[i]| > 0 && AllReadable(rows[i])
    ensures ReadDocument(Join(Lines(rows), "\n")) == Some(ValueRows(rows))
    decreases |rows|
  {
    var lines := Lines(rows);
    if |rows| == 1 {
      assert Join(lines, "\n") == Join(EncodeAll(rows[0]), ",") + [];
      ReadRecordEncoded(rows[0], []);
      assert ValueRows(rows) == [Values(rows[0])];
    } else {
      var rest := Join(Lines(rows[1..]), "\n");
      assert lines[1..] == Lines(rows[1..]);
      assert Join(lines, "\n") == Join(EncodeAll(rows[0]), ",") + ("\n" + rest);
      ReadRecordEncoded(rows[0], "\n" + rest);
      assert ("\n" + rest)[1..] == rest;
      ReadDocumentEncoded(rows[1..]);
      assert [Values(rows[0])] + ValueRows(rows[1..]) == ValueRows(rows);
    }
  }

  /** Splitting the last part at a separator adds one part to the join. */
  lemma {:induction false} JoinSplitLast(parts: seq<string>, a: string, b: string, sep: string)
    requires |parts| > 0
    ensures Join(parts + [a + sep + b], sep) == Join(parts + [a, b], sep)
    decreases |parts|
  {
    if |parts| == 1 {
      assert (parts + [a, b])[1..] == [a, b];
      assert [a, b][1..] == [b];
      assert Join([a, b], sep) == a + sep + b;
      assert (parts + [a + sep + b])[1..] == [a + sep + b];
    } else {
      JoinSplitLast(parts[1..], a, b, sep);
      assert (parts + [a, b])[1..] == parts[1..] + [a, b];
      assert (parts + [a + sep + b])[1..] == parts[1..] + [a + sep + b];
    }
  }
}

=== FILE: discovery.dfy ===
/** Discovery: turning the grounding chunks of a maps-grounded answer into
    fresh, deduplicated leads (the conversion inside `findBusinesses`,
    services/gemini.ts). The remote call is an input: it either failed or
    produced a response. */
module Discovery {
  import opened Wrappers
  import opened Types

  /** The address a lead gets when its place has none. */
  const NoAddress := "Dirección no disponible"

  /** A maps place reference carried by a grounding chunk. */
  datatype Place = Place(title: Option<string>, address: Option<string>, placeId: Option<string>, uri: Option<string>)

  datatype GroundingChunk = GroundingChunk(maps: Option<Place>)

  datatype GroundingMetadata = GroundingMetadata(groundingChunks: Option<seq<GroundingChunk>>)

  datatype Candidate = Candidate(groundingMetadata: Option<GroundingMetadata>)

  datatype MapsResponse = MapsResponse(candidates: Option<seq<Candidate>>)

  /** What the remote discovery call did: threw, or answered. */
  datatype DiscoveryCall = CallFailed | Responded(response: MapsResponse)

  /** The error `findBusinesses` rethrows to its caller. */
  datatype DiscoveryError = DiscoveryError

  /** The grounding chunks of the first candidate; none when any link of
      `candidates[0].groundingMetadata.groundingChunks` is missing. */
  function ChunksOf(response: MapsResponse): (r: seq<GroundingChunk>)
    ensures r != [] ==> response.candidates.Some? && response.candidates.value != []
                        && response.candidates.value[0].groundingMetadata.Some?
                        && response.candidates.value[0].groundingMetadata.value.groundingChunks == Some(r)
    ensures && response.candidates.Some? && response.candidates.value != []
            && response.candidates.value[0].groundingMetadata.Some?
            && response.candidates.value[0].groundingMetadata.value.groundingChunks.Some?
            ==> r == response.candidates.value[0].groundingMetadata.value.groundingChunks.value
  {
    match response.candidates
    case None => []
    case Some(cands) =>
      if cands == [] then []
      else
        match cands[0].groundingMetadata
        case None => []
        case Some(meta) =>
          match meta.groundingChunks
          case None => []
          case Some(chunks) => chunks
  }

  /** A chunk that can produce a lead: it has a place, and the place a truthy title. */
  predicate Usable(c: GroundingChunk)
  {
    c.maps.Some? && Truthy(c.maps.value.title)
  }

  /** `leads.find(l => l.placeId === pid)`; `===` on `string | undefined`
      makes two absent place ids equal. */
  function FindByPlaceId(leads: seq<Lead>, pid: Option<string>): (r: Option<Lead>)
    ensures r.Some? ==> r.value in leads && r.value.placeId == pid
    ensures r.None? <==> forall i :: 0 <= i < |leads| ==> leads[i].placeId != pid
  {
    if leads == [] then None
    else if leads[0].placeId == pid then Some(leads[0])
    else FindByPlaceId(leads[1..], pid)
  }

  /** The lead pushed for a new place. */
  function NewLead(id: string, place: Place): (r: Lead)
    requires place.title.Some?
    ensures r.id == id && r.name == place.title.value
    ensures r.placeId == place.placeId && r.sourceUrl == place.uri
    ensures Truthy(place.address) ==> r.address == place.address.value
    ensures !Truthy(place.address) ==> r.address == NoAddress
    ensures Truthy(place.title) ==> IsFresh(r)
  {
    Lead(id := id, name := place.title.value, address := Or(place.address, NoAddress),
         placeId := place.placeId, website := Some(""), phone := Some(""), email := Some(""),
         owner := Some(""), status := Discovered, sourceUrl := place.uri, notes := None)
  }

  /** A freshly created lead: named, addressed, Discovered, every contact field empty, no notes. */
  predicate IsFresh(l: Lead)
  {
    && l.name != "" && l.address != ""
    && l.status == Discovered
    && l.website == Some("") && l.phone == Some("") && l.email == Some("") && l.owner == Some("")
    && l.notes == None
  }

  /** No two leads share a place id (an absent one counts as a value). */
  predicate UniquePlaceIds(leads: seq<Lead>)
  {
    forall i, j :: 0 <= i < j < |leads| ==> leads[i].placeId != leads[j].placeId
  }

  /** One call of the `forEach` callback: the next fresh id is `ids[|leads|]`. */
  function AddChunk(leads: seq<Lead>, chunk: GroundingChunk, ids: seq<string>): (r: seq<Lead>)
    requires |leads| < |ids|
    ensures |leads| <= |r| <= |leads| + 1 && r[..|leads|] == leads
    ensures |r| == |leads| + 1 <==> Usable(chunk) && FindByPlaceId(leads, chunk.maps.value.placeId).None?
    ensures |r| == |leads| + 1 ==> r[|leads|] == NewLead(ids[|leads|], chunk.maps.value)
  {
    if chunk.maps.Some? then
      var place := chunk.maps.value;
      var found := FindByPlaceId(leads, place.placeId);
      if found.None? && Truthy(place.title) then leads + [NewLead(ids[|leads|], place)] else leads
    else leads
  }

  /** The leads built by the `forEach` over `chunks`, in push order. */
  function CollectLeads(chunks: seq<GroundingChunk>, ids: seq<string>): (leads: seq<Lead>)
    requires |chunks| <= |ids|
    decreases |chunks|
    ensures |leads| <= |chunks|
    ensures forall k :: 0 <= k < |leads| ==> leads[k].id == ids[k] && IsFresh(leads[k])
    ensures UniquePlaceIds(leads)
  {
    if chunks == [] then []
    else AddChunk(CollectLeads(chunks[..|chunks| - 1], ids), chunks[|chunks| - 1], ids)
  }

  /** `findBusinesses` after the remote call: a failed call is rethrown,
      an answer is converted. */
  function FindBusinesses(call: DiscoveryCall, ids: seq<string>): (r: Result<seq<Lead>, DiscoveryError>)
    requires call.Responded? ==> |ChunksOf(call.response)| <= |ids|
    ensures r.Failure? <==> call.CallFailed?
    ensures r.Success? ==> |r.value| <= |ChunksOf(call.response)|
    ensures r.Success? ==> UniquePlaceIds(r.value)
    ensures r.Success? ==> forall k :: 0 <= k < |r.value| ==> r.value[k].id == ids[k] && IsFresh(r.value[k])
    ensures call.Responded? && ChunksOf(call.response) == [] ==> r == Success([])
    ensures call.Responded? ==> r == Success(CollectLeads(ChunksOf(call.response), ids))
  {
    match call
    case CallFailed => Failure(DiscoveryError)
    case Responded(response) => Success(CollectLeads(ChunksOf(response), ids))
  }

  /** Because `===` treats two absent place ids as equal, at most one
      discovered lead lacks a place id. */
  lemma {:induction false} AtMostOneWithoutPlaceId(chunks: seq<GroundingChunk>, ids: seq<string>, i: int, j: int)
    requires |chunks| <= |ids|
    requires 0 <= i < j < |CollectLeads(chunks, ids)|
    ensures CollectLeads(chunks, ids)[i].placeId.Some? || CollectLeads(chunks, ids)[j].placeId.Some?
  {
  }

  // ---------------------------------------------------------------------
  // A declarative reference for the conversion, and the lemmas tying the
  // fold to it.

  /** The place ids of the usable chunks. */
  ghost function UsedPlaceIds(chunks: seq<GroundingChunk>): set<Option<string>>
  {
    set j | 0 <= j < |chunks| && Usable(chunks[j]) :: chunks[j].maps.value.placeId
  }

  /** The place ids carried by a sequence of leads. */
  ghost function LeadPlaceIds(leads: seq<Lead>): set<Option<string>>
  {
    set k | 0 <= k < |leads| :: leads[k].placeId
  }

  /** Reference definition: the places of the usable chunks whose place id
      no earlier usable chunk carries, in chunk order. */
  ghost function FirstOccurrences(chunks: seq<GroundingChunk>): (r: seq<Place>)
    decreases |chunks|
    ensures |r| <= |chunks|
    ensures forall k :: 0 <= k < |r| ==> Truthy(r[k].title)
  {
    if chunks == [] then []
    else
      var prefix := chunks[..|chunks| - 1];
      var c := chunks[|chunks| - 1];
      FirstOccurrences(prefix)
        + (if Usable(c) && c.maps.value.placeId !in UsedPlaceIds(prefix) then [c.maps.value] else [])
  }

  /** The kept places carry exactly the place ids of the usable chunks. */
  lemma {:induction false} FirstOccurrencesCoverUsed(chunks: seq<GroundingChunk>)
    ensures (set k | 0 <= k < |FirstOccurrences(chunks)| :: FirstOccurrences(chunks)[k].placeId) == UsedPlaceIds(chunks)
  {
    if chunks != [] {
      var prefix := chunks[..|chunks| - 1];
      var c := chunks[|chunks| - 1];
      FirstOccurrencesCoverUsed(prefix);
      var r := FirstOccurrences(chunks);
      var rp := FirstOccurrences(prefix);
      assert UsedPlaceIds(chunks) == UsedPlaceIds(prefix) + (if Usable(c) then {c.maps.value.placeId} else {}) by {
        forall j | 0 <= j < |prefix| ensures prefix[j] == chunks[j] { }
      }
      assert (set k | 0 <= k < |r| :: r[k].placeId)
          == (set k | 0 <= k < |rp| :: rp[k].placeId) + (if |r| > |rp| then {r[|rp|].placeId} else {}) by {
        forall k | 0 <= k < |rp| ensures r[k] == rp[k] { }
      }
    }
  }

  /** `find` by place id misses exactly when no lead carries that place id. */
  lemma {:induction false} FindMissesIffAbsent(leads: seq<Lead>, pid: Option<string>)
    ensures FindByPlaceId(leads, pid).None? <==> pid !in LeadPlaceIds(leads)
  {
    if pid in LeadPlaceIds(leads) {
      var k :| 0 <= k < |leads| && leads[k].placeId == pid;
    }
  }

  /** Leads built from places carry the places' ids. */
  lemma {:induction false} BuiltLeadsCarryPlaceIds(leads: seq<Lead>, places: seq<Place>, ids: seq<string>)
    requires |leads| == |places| <= |ids|
    requires forall k :: 0 <= k < |places| ==> places[k].title.Some?
    requires forall k :: 0 <= k < |leads| ==> leads[k] == NewLead(ids[k], places[k])
    ensures LeadPlaceIds(leads) == set k | 0 <= k < |places| :: places[k].placeId
  {
    forall k | 0 <= k < |leads| ensures leads[k].placeId == places[k].placeId { }
  }

  /** The fold computes the reference: lead `k` is built from the `k`-th
      kept place with the `k`-th fresh id. */
  lemma {:induction false} CollectMatchesFirstOccurrences(chunks: seq<GroundingChunk>, ids: seq<string>)
    requires |chunks| <= |ids|
    ensures |CollectLeads(chunks, ids)| == |FirstOccurrences(chunks)|
    ensures forall k :: 0 <= k < |CollectLeads(chunks, ids)| ==>
              CollectLeads(chunks, ids)[k] == NewLead(ids[k], FirstOccurrences(chunks)[k])
  {
    if chunks != [] {
      var prefix := chunks[..|chunks| - 1];
      var c := chunks[|chunks| - 1];
      CollectMatchesFirstOccurrences(prefix, ids);
      var before := CollectLeads(prefix, ids);
      var rp := FirstOccurrences(prefix);
      var after := CollectLeads(chunks, ids);
      var r := FirstOccurrences(chunks);
      assert after == AddChunk(before, c, ids);
      FirstOccurrencesCoverUsed(prefix);
      BuiltLeadsCarryPlaceIds(before, rp, ids);
      if Usable(c) {
        var pid := c.maps.value.placeId;
        FindMissesIffAbsent(before, pid);
        if pid !in UsedPlaceIds(prefix) {
          assert after == before + [NewLead(ids[|before|], c.maps.value)];
          assert r == rp + [c.maps.value];
        } else {
          assert after == before;
          assert r == rp;
        }
      } else {
        assert after == before;
        assert r == rp;
      }
    }
  }

  /** Every usable chunk's place id is carried by some output lead (by
      exactly one, since `CollectLeads` keeps place ids unique). */
  lemma {:induction false} OnePerUsedPlaceId(chunks: seq<GroundingChunk>, ids: seq<string>, j: int)
    requires |chunks| <= |ids|
    requires 0 <= j < |chunks| && Usable(chunks[j])
    ensures exists k :: 0 <= k < |CollectLeads(chunks, ids)| && CollectLeads(chunks, ids)[k].placeId == chunks[j].maps.value.placeId
  {
    CollectMatchesFirstOccurrences(chunks, ids);
    FirstOccurrencesCoverUsed(chunks);
    var pid := chunks[j].maps.value.placeId;
    assert pid in UsedPlaceIds(chunks);
    var r := FirstOccurrences(chunks);
    var k :| 0 <= k < |r| && r[k].placeId == pid;
    assert CollectLeads(chunks, ids)[k].placeId == pid;
  }

  /** The first usable chunk carrying a place id is the one its lead is built from. */
  lemma {:induction false} FirstOccurrenceKept(chunks: seq<GroundingChunk>, j: int, k: int)
    requires 0 <= j < |chunks| && Usable(chunks[j])
    requires forall i :: 0 <= i < j && Usable(chunks[i]) ==> chunks[i].maps.value.placeId != chunks[j].maps.value.placeId
    requires 0 <= k < |FirstOccurrences(chunks)|
    requires FirstOccurrences(chunks)[k].placeId == chunks[j].maps.value.placeId
    ensures FirstOccurrences(chunks)[k] == chunks[j].maps.value
    decreases |chunks|
  {
    var prefix := chunks[..|chunks| - 1];
    var c := chunks[|chunks| - 1];
    var rp := FirstOccurrences(prefix);
    FirstOccurrencesCoverUsed(prefix);
    if j < |chunks| - 1 {
      assert prefix[j] == chunks[j];
      assert chunks[j].maps.value.placeId in UsedPlaceIds(prefix);
      if k < |rp| {
        forall i | 0 <= i < j && Usable(prefix[i])
          ensures prefix[i].maps.value.placeId != prefix[j].maps.value.placeId
        {
          assert prefix[i] == chunks[i];
        }
        FirstOccurrenceKept(prefix, j, k);
      }
    } else {
      var pid := chunks[j].maps.value.placeId;
      assert pid !in UsedPlaceIds(prefix) by {
        forall i | 0 <= i < |prefix| && Usable(prefix[i]) ensures prefix[i].maps.value.placeId != pid {
          assert prefix[i] == chunks[i];
        }
      }
      forall m | 0 <= m < |rp| ensures rp[m].placeId != pid {
        assert rp[m].placeId in (set m' | 0 <= m' < |rp| :: rp[m'].placeId);
      }
    }
  }

  /** Discovery over a response whose first occurrence of each place id is
      known: the lead carrying that place id takes the chunk's title, address
      (or the default), place id and uri. */
  lemma {:induction false} FirstOccurrenceWins(chunks: seq<GroundingChunk>, ids: seq<string>, j: int, k: int)
    requires |chunks| <= |ids|
    requires 0 <= j < |chunks| && Usable(chunks[j])
    requires forall i :: 0 <= i < j && Usable(chunks[i]) ==> chunks[i].maps.value.placeId != chunks[j].maps.value.placeId
    requires 0 <= k < |CollectLeads(chunks, ids)|
    requires CollectLeads(chunks, ids)[k].placeId == chunks[j].maps.value.placeId
    ensures CollectLeads(chunks, ids)[k].name == chunks[j].maps.value.title.value
    ensures CollectLeads(chunks, ids)[k].address == Or(chunks[j].maps.value.address, NoAddress)
    ensures CollectLeads(chunks, ids)[k].sourceUrl == chunks[j].maps.value.uri
  {
    CollectMatchesFirstOccurrences(chunks, ids);
    FirstOccurrenceKept(chunks, j, k);
  }
}

=== FILE: enrichment.dfy ===
/** Enrichment: reading the JSON an AI web search answered with and merging
    it into a lead (the response handling of `enrichLead`,
    services/gemini.ts). The remote call is an input (it threw, or it
    answered with an optional text) and so is `JSON.parse`, as a function
    from the extracted string to what it decoded. */
module Enrichment {
  import opened Wrappers
  import opened Types
  import opened Text

  /** The literal the prompt asks the model to use for "not found". */
  const NotFound := "vacío"

  /** The note a lead gets when its enrichment threw. */
  const FailureNote := "Error en la investigación"

  const JsonFenceOpen := "```json\n"
  const JsonFenceClose := "\n```"
  const Fence := "```"

  /** The four contact fields of the decoded object; a missing key is `None`. */
  datatype Patch = Patch(website: Option<string>, phone: Option<string>, email: Option<string>, owner: Option<string>)

  /** The record used when nothing could be extracted or parsed. */
  const Fallback := Patch(Some(""), Some(""), Some(""), Some(""))

  /** What `JSON.parse` did with the extracted text: threw, returned `null`
      (reading a field of it then throws), or returned a value whose four
      fields are read (a non-object value has none of them). */
  datatype Decoded = Unparseable | JsonNull | JsonValue(fields: Patch)

  /** What the remote enrichment call did: threw, or answered with `response.text`. */
  datatype Reply = Threw | Replied(text: Option<string>)

  /** `jsonMatch[1] || jsonMatch[0]`: the captured group unless it is empty. */
  function GroupOrMatch(group: string, whole: string): (r: string)
    ensures r == group || r == whole
    ensures r == "" <==> group == "" && whole == ""
    ensures group != "" ==> r == group
  {
    if group != "" then group else whole
  }

  /** Some `{` comes before some `}`. */
  ghost predicate HasBracePair(text: string)
  {
    exists i, j :: 0 <= i < j < |text| && text[i] == '{' && text[j] == '}'
  }

  /** `text[p]` is the first `{` of the text and `text[q]`, after it, the last `}`. */
  ghost predicate OutermostBraces(text: string, p: int, q: int)
  {
    && 0 <= p < q < |text| && text[p] == '{' && text[q] == '}'
    && Lacks(text[..p], '{') && Lacks(text[q + 1..], '}')
  }

  /** The match of `/(\{[\s\S]*\})/`: from the leftmost `{` that has a `}`
      after it to the last `}` of the text (the group is greedy). Only the
      first `{` need be tried: if no `}` follows it, none follows a later one. */
  function BraceMatch(text: string): (r: Option<string>)
    ensures r.Some? <==> HasBracePair(text)
    ensures r.Some? ==> 2 <= |r.value| && r.value[0] == '{' && r.value[|r.value| - 1] == '}'
    ensures r.Some? ==> exists p, q :: OutermostBraces(text, p, q) && r.value == text[p..q + 1]
  {
    match IndexOfFrom(text, "{", 0)
    case None =>
      assert !HasBracePair(text) by {
        forall i | 0 <= i < |text| ensures text[i] != '{' {
          assert !OccursAt(text, "{", i);
          assert text[i..i + 1] == [text[i]];
        }
      }
      None
    case Some(p) =>
      match LastIndexOf(text, '}')
      case None => None
      case Some(q) =>
        if p < q then
          assert text[p] == text[p..p + 1][0];
          assert Lacks(text[..p], '{') by {
            forall i | 0 <= i < p ensures text[..p][i] != '{' {
              assert !OccursAt(text, "{", i);
              assert text[i..i + 1] == [text[i]];
            }
          }
          var tail := text[q + 1..];
          assert Lacks(tail, '}') by {
            forall i | 0 <= i < |tail| ensures tail[i] != '}' {
              assert tail[i] == text[q + 1 + i];
            }
          }
          assert OutermostBraces(text, p, q);
          Some(text[p..q + 1])
        else
          assert !HasBracePair(text) by {
            forall i | 0 <= i < p ensures text[i] != '{' {
              assert !OccursAt(text, "{", i);
              assert text[i..i + 1] == [text[i]];
            }
          }
          None
  }

  /** The string handed to `JSON.parse`, if any of the three patterns
      matches: a block fenced as json (newline after the opening fence and
      before the closing one), else any fenced block, else the greedy brace match. */
  function ExtractJson(text: string): (r: Option<string>)
    ensures r.None? <==> (forall p :: !LazyMatchesAt(text, Fence, Fence, p)) && !HasBracePair(text)
    ensures r.Some? ==> r.value != ""
  {
    match LazyMatchFrom(text, JsonFenceOpen, JsonFenceClose, 0)
    case Some((p, q)) =>
      assert OccursAt(text, Fence, p) by {
        assert text[p..p + 3] == text[p..p + |JsonFenceOpen|][..3];
      }
      assert OccursAt(text, Fence, q + 1) by {
        assert text[q + 1..q + 4] == text[q..q + |JsonFenceClose|][1..];
      }
      assert LazyMatchesAt(text, Fence, Fence, p);
      Some(GroupOrMatch(text[p + |JsonFenceOpen|..q], text[p..q + |JsonFenceClose|]))
    case None =>
      match LazyMatchFrom(text, Fence, Fence, 0)
      case Some((p, q)) =>
        assert LazyMatchesAt(text, Fence, Fence, p);
        Some(GroupOrMatch(text[p + |Fence|..q], text[p..q + |Fence|]))
      case None => BraceMatch(text)
  }

  /** The record the merge uses, or `None` when reading its fields throws. */
  function PatchFor(text: string, parse: string -> Decoded): (r: Option<Patch>)
    ensures ExtractJson(text).None? ==> r == Some(Fallback)
    ensures ExtractJson(text).Some? && parse(ExtractJson(text).value).Unparseable? ==> r == Some(Fallback)
    ensures r.None? <==> ExtractJson(text).Some? && parse(ExtractJson(text).value).JsonNull?
    ensures ExtractJson(text).Some? && parse(ExtractJson(text).value).JsonValue? ==>
              r == Some(parse(ExtractJson(text).value).fields)
  {
    match ExtractJson(text)
    case None => Some(Fallback)
    case Some(json) =>
      match parse(json)
      case Unparseable => Some(Fallback)
      case JsonNull => None
      case JsonValue(p) => Some(p)
  }

  /** The lead returned on success: website and phone take the parsed value
      unless it is the sentinel (then the prior value stays), email and owner
      take the parsed value or `""` for the sentinel, status becomes Completed. */
  function Merge(lead: Lead, p: Patch): (r: Lead)
    ensures r.id == lead.id && r.name == lead.name && r.address == lead.address
    ensures r.placeId == lead.placeId && r.sourceUrl == lead.sourceUrl && r.notes == lead.notes
    ensures r.status == Completed
    ensures p.website != Some(NotFound) ==> r.website == p.website
    ensures p.website == Some(NotFound) ==> r.website == lead.website
    ensures p.phone != Some(NotFound) ==> r.phone == p.phone
    ensures p.phone == Some(NotFound) ==> r.phone == lead.phone
    ensures r.email != Some(NotFound) && r.owner != Some(NotFound)
    ensures p.email != Some(NotFound) ==> r.email == p.email
    ensures p.owner != Some(NotFound) ==> r.owner == p.owner
    ensures p.email == Some(NotFound) ==> r.email == Some("")
    ensures p.owner == Some(NotFound) ==> r.owner == Some("")
  {
    lead.(website := if p.website != Some(NotFound) then p.website else lead.website,
          phone := if p.phone != Some(NotFound) then p.phone else lead.phone,
          email := if p.email != Some(NotFound) then p.email else Some(""),
          owner := if p.owner != Some(NotFound) then p.owner else Some(""),
          status := Completed)
  }

  /** The lead returned when the enrichment threw. */
  function FailedLead(lead: Lead): (r: Lead)
    ensures r.status == Failed && r.notes == Some(FailureNote)
    ensures r.(status := lead.status, notes := lead.notes) == lead
  {
    lead.(status := Failed, notes := Some(FailureNote))
  }

  /** `enrichLead`: never throws; a thrown remote call, or a decoded `null`,
      yields the Failed lead, anything else the merged Completed lead. */
  function EnrichLead(lead: Lead, reply: Reply, parse: string -> Decoded): (r: Lead)
    ensures r.id == lead.id && r.name == lead.name && r.address == lead.address
    ensures r.placeId == lead.placeId && r.sourceUrl == lead.sourceUrl
    ensures r.status == Completed || r.status == Failed
    ensures r.status == Failed <==> reply.Threw? || PatchFor(Or(reply.text, ""), parse).None?
    ensures r.status == Failed ==> r == lead.(status := Failed, notes := Some(FailureNote))
    ensures r.status == Completed ==> r.notes == lead.notes
    ensures reply.Replied? && PatchFor(Or(reply.text, ""), parse).Some? ==>
              r == Merge(lead, PatchFor(Or(reply.text, ""), parse).value)
  {
    match reply
    case Threw => FailedLead(lead)
    case Replied(t) =>
      match PatchFor(Or(t, ""), parse)
      case None => FailedLead(lead)
      case Some(p) => Merge(lead, p)
  }

  // ---------------------------------------------------------------------
  // Laws of extraction and merge.

  /** No json fence opens before `p` when no backtick does. */
  lemma {:induction false} NoOpenBefore(text: string, p: nat)
    requires p <= |text| && forall i :: 0 <= i < p ==> text[i] != '`'
    ensures forall i :: 0 <= i < p ==> !OccursAt(text, JsonFenceOpen, i)
  {
    forall i | 0 <= i < p ensures !OccursAt(text, JsonFenceOpen, i) {
      NoOccurrenceAt(text, JsonFenceOpen, i, 0);
    }
  }

  /** No closing fence starts in `[lo, q)` when no backtick lies in `(lo, q]`. */
  lemma {:induction false} NoCloseBetween(text: string, lo: nat, q: nat)
    requires q < |text| && forall j :: lo < j <= q ==> text[j] != '`'
    ensures forall i :: lo <= i < q ==> !OccursAt(text, JsonFenceClose, i)
  {
    forall i | lo <= i < q ensures !OccursAt(text, JsonFenceClose, i) {
      NoOccurrenceAt(text, JsonFenceClose, i, 1);
    }
  }

  /** In the requested answer format the json-fence pattern matches from
      the end of the preamble to the fence after the body. */
  lemma {:induction false} FencedMatchFound(pre: string, body: string, post: string)
    requires Lacks(pre, '`') && Lacks(body, '`')
    ensures LazyMatchFrom(pre + JsonFenceOpen + body + JsonFenceClose + post, JsonFenceOpen, JsonFenceClose, 0)
         == Some((|pre|, |pre| + |JsonFenceOpen| + |body|))
  {
    var text := pre + JsonFenceOpen + body + JsonFenceClose + post;
    var p := |pre|;
    var lo := p + |JsonFenceOpen|;
    var q := lo + |body|;
    FiveSlices(pre, JsonFenceOpen, body, JsonFenceClose, post);
    FiveChars(pre, JsonFenceOpen, body, JsonFenceClose, post);
    assert OccursAt(text, JsonFenceOpen, p);
    assert OccursAt(text, JsonFenceClose, q);
    NoOpenBefore(text, p);
    assert text[q] == text[q..q + |JsonFenceClose|][0];
    forall j | lo < j <= q ensures text[j] != '`' {
      if j < q { assert text[j] == body[j - lo]; }
    }
    NoCloseBetween(text, lo, q);
    LazyMatchFinds(text, JsonFenceOpen, JsonFenceClose, p, q);
  }

  /** When the json-fence pattern matches, its group (or, if that is empty,
      the whole match) is what gets parsed. */
  lemma {:induction false} JsonFenceWins(text: string, p: nat, q: nat)
    requires LazyMatchFrom(text, JsonFenceOpen, JsonFenceClose, 0) == Some((p, q))
    ensures p + |JsonFenceOpen| <= q && q + |JsonFenceClose| <= |text|
    ensures ExtractJson(text) == Some(GroupOrMatch(text[p + |JsonFenceOpen|..q], text[p..q + |JsonFenceClose|]))
  {
  }

  /** The answer format the prompt requests is read back exactly: a json
      fence around a body, after a preamble, before any trailer. An empty
      body is falsy, so the whole fenced match is handed on instead. */
  lemma {:induction false} FencedJsonExtracted(pre: string, body: string, post: string)
    requires Lacks(pre, '`') && Lacks(body, '`')
    ensures body != "" ==> ExtractJson(pre + JsonFenceOpen + body + JsonFenceClose + post) == Some(body)
    ensures body == "" ==> ExtractJson(pre + JsonFenceOpen + body + JsonFenceClose + post) == Some(JsonFenceOpen + JsonFenceClose)
  {
    var text := pre + JsonFenceOpen + body + JsonFenceClose + post;
    var p := |pre|;
    var q := p + |JsonFenceOpen| + |body|;
    FencedMatchFound(pre, body, post);
    JsonFenceWins(text, p, q);
    FiveSlices(pre, JsonFenceOpen, body, JsonFenceClose, post);
    if body == "" {
      assert JsonFenceOpen + body + JsonFenceClose == JsonFenceOpen + JsonFenceClose;
    }
  }

  /** In an answer with one untagged fenced block, the any-fence pattern
      matches from the end of the preamble to the fence after the body. */
  lemma {:induction false} FencedBlockMatchFound(pre: string, body: string, post: string)
    requires Lacks(pre, '`') && Lacks(body, '`')
    ensures LazyMatchFrom(pre + Fence + body + Fence + post, Fence, Fence, 0)
         == Some((|pre|, |pre| + |Fence| + |body|))
  {
    var text := pre + Fence + body + Fence + post;
    var p := |pre|;
    var lo := p + |Fence|;
    var q := lo + |body|;
    FiveSlices(pre, Fence, body, Fence, post);
    FiveChars(pre, Fence, body, Fence, post);
    assert OccursAt(text, Fence, p);
    assert OccursAt(text, Fence, q);
    forall i | 0 <= i < p ensures !OccursAt(text, Fence, i) {
      NoOccurrenceAt(text, Fence, i, 0);
    }
    forall i | lo <= i < q ensures !OccursAt(text, Fence, i) {
      assert text[i] == body[i - lo];
      NoOccurrenceAt(text, Fence, i, 0);
    }
    LazyMatchFinds(text, Fence, Fence, p, q);
  }

  /** When the json-fence pattern finds nothing, a block between two plain
      fences is handed on as its body, braces and all: the second pattern
      is tried before the brace match. */
  lemma {:induction false} FencedBlockExtracted(pre: string, body: string, post: string)
    requires Lacks(pre, '`') && Lacks(body, '`') && body != ""
    requires LazyMatchFrom(pre + Fence + body + Fence + post, JsonFenceOpen, JsonFenceClose, 0).None?
    ensures ExtractJson(pre + Fence + body + Fence + post) == Some(body)
  {
    var text := pre + Fence + body + Fence + post;
    FencedBlockMatchFound(pre, body, post);
    FiveSlices(pre, Fence, body, Fence, post);
  }

  /** An answer in the requested format, whose body parses to an object,
      completes the lead with exactly the merge of that object. */
  lemma {:induction false} FencedAnswerMerged(lead: Lead, pre: string, body: string, post: string, parse: string -> Decoded)
    requires Lacks(pre, '`') && Lacks(body, '`') && body != ""
    requires parse(body).JsonValue?
    ensures EnrichLead(lead, Replied(Some(pre + JsonFenceOpen + body + JsonFenceClose + post)), parse)
         == Merge(lead, parse(body).fields)
  {
    var text := pre + JsonFenceOpen + body + JsonFenceClose + post;
    FencedJsonExtracted(pre, body, post);
    assert Or(Some(text), "") == text;
  }

  /** An answer with no fence at all is read by its outermost braces. */
  lemma {:induction false} BareObjectExtracted(pre: string, inner: string, post: string)
    requires Lacks(pre, '`') && Lacks(inner, '`') && Lacks(post, '`')
    requires Lacks(pre, '{') && Lacks(post, '}')
    ensures ExtractJson(pre + "{" + inner + "}" + post) == Some("{" + inner + "}")
  {
    var text := pre + "{" + inner + "}" + post;
    forall i | 0 <= i < |text| ensures text[i] != '`' {
      if i < |pre| { assert text[i] == pre[i]; }
      else if i == |pre| { }
      else if i < |pre| + 1 + |inner| { assert text[i] == inner[i - |pre| - 1]; }
      else if i == |pre| + 1 + |inner| { }
      else { assert text[i] == post[i - |pre| - 2 - |inner|]; }
    }
    forall i | 0 <= i ensures !OccursAt(text, JsonFenceOpen, i) && !OccursAt(text, Fence, i) {
      NoOccurrenceAt(text, Fence, i, 0);
      NoOccurrenceAt(text, JsonFenceOpen, i, 0);
    }
    var p := |pre|;
    var q := |pre| + 1 + |inner|;
    assert OccursAt(text, "{", p) by { assert text[p..p + 1] == "{"; }
    forall i | 0 <= i < p ensures !OccursAt(text, "{", i) {
      assert text[i] == pre[i];
      NoOccurrenceAt(text, "{", i, 0);
    }
    assert IndexOfFrom(text, "{", 0) == Some(p);
    assert text[q] == '}';
    forall j | q < j < |text| ensures text[j] != '}' {
      assert text[j] == post[j - q - 1];
    }
    assert LastIndexOf(text, '}') == Some(q);
    assert text[p..q + 1] == "{" + inner + "}";
  }

  /** Re-applying the same answer changes nothing more. */
  lemma {:induction false} MergeIdempotent(lead: Lead, p: Patch)
    ensures Merge(Merge(lead, p), p) == Merge(lead, p)
  {
  }

  /** Email and owner are overwritten whatever the lead held before;
      website and phone depend on the prior value only through the sentinel. */
  lemma {:induction false} EmailOwnerIgnorePrior(a: Lead, b: Lead, p: Patch)
    ensures Merge(a, p).email == Merge(b, p).email
    ensures Merge(a, p).owner == Merge(b, p).owner
    ensures p.website != Some(NotFound) ==> Merge(a, p).website == Merge(b, p).website
    ensures p.phone != Some(NotFound) ==> Merge(a, p).phone == Merge(b, p).phone
  {
  }

  /** Nothing extracted, or nothing parsed: all four contact fields become
      `""` and the lead still completes. */
  lemma {:induction false} ParseFailureBlanksContacts(lead: Lead, text: Option<string>, parse: string -> Decoded)
    requires var t := Or(text, "");
             ExtractJson(t).None? || parse(ExtractJson(t).value).Unparseable?
    ensures var r := EnrichLead(lead, Replied(text), parse);
            && r.status == Completed
            && r.website == Some("") && r.phone == Some("") && r.email == Some("") && r.owner == Some("")
            && r.notes == lead.notes
  {
  }

  /** The empty string is not the sentinel: an answer of `""` for website
      or phone erases a prior value. */
  lemma {:induction false} EmptyStringOverwrites(lead: Lead, p: Patch)
    requires Truthy(lead.website) && p.website == Some("")
    ensures Merge(lead, p).website == Some("") != lead.website
    ensures p.phone == Some("") ==> Merge(lead, p).phone == Some("")
  {
  }
}

=== FILE: export.dfy ===
/** The CSV export of the lead collection (`handleExportCSV`, App.tsx):
    a header line, then one line per lead; six fields quoted with their
    quotes doubled, the status and the source URL written raw. Building the
    download (blob, link, file name) is I/O and not part of the model. */
module Export {
  import opened Wrappers
  import opened Types
  import opened Text
  import opened Csv

  const Headers: seq<string> := ["Nombre", "Dirección", "Teléfono", "Email", "Web", "Propietario/CEO", "Estado", "Map URL"]

  /** The eight cells of a lead's line, in column order. */
  function Cells(lead: Lead): (r: seq<Cell>)
    ensures |r| == |Headers|
    ensures forall j :: 0 <= j < 6 ==> r[j].Quoted?
    ensures r[6].Raw? && r[7].Raw?
  {
    [ Quoted(lead.name), Quoted(lead.address),
      Quoted(Or(lead.phone, "")), Quoted(Or(lead.email, "")),
      Quoted(Or(lead.website, "")), Quoted(Or(lead.owner, "")),
      Raw(StatusValue(lead.status)), Raw(Or(lead.sourceUrl, "")) ]
  }

  /** The line a lead is exported as. */
  function Row(lead: Lead): string
  {
    Join(EncodeAll(Cells(lead)), ",")
  }

  /** What a reader of the export should recover for a lead: its text
      fields (absent ones as `""`), the status value and the source URL. */
  function Fields(lead: Lead): seq<string>
  {
    [ lead.name, lead.address, Or(lead.phone, ""), Or(lead.email, ""),
      Or(lead.website, ""), Or(lead.owner, ""), StatusValue(lead.status), Or(lead.sourceUrl, "") ]
  }

  /** The line of every lead, in order. */
  function Rows(leads: seq<Lead>): (r: seq<string>)
    ensures |r| == |leads| && forall i :: 0 <= i < |leads| ==> r[i] == Row(leads[i])
  {
    if leads == [] then [] else [Row(leads[0])] + Rows(leads[1..])
  }

  /** The fields of every lead, in order. */
  function FieldRows(leads: seq<Lead>): (r: seq<seq<string>>)
    ensures |r| == |leads| && forall i :: 0 <= i < |leads| ==> r[i] == Fields(leads[i])
  {
    if leads == [] then [] else [Fields(leads[0])] + FieldRows(leads[1..])
  }

  /** The cells of every lead, in order. */
  function CellRows(leads: seq<Lead>): (r: seq<seq<Cell>>)
    ensures |r| == |leads| && forall i :: 0 <= i < |leads| ==> r[i] == Cells(leads[i])
  {
    if leads == [] then [] else [Cells(leads[0])] + CellRows(leads[1..])
  }

  /** The CSV text, or `None` when the collection is empty (nothing is exported). */
  function ExportCsv(leads: seq<Lead>): (r: Option<string>)
    ensures r.None? <==> leads == []
    ensures r.Some? ==> StartsWith(r.value, Join(Headers, ",") + "\n")
  {
    if |leads| == 0 then None
    else
      var lines := [Join(Headers, ",")] + Rows(leads);
      assert Join(lines, "\n") == Join(Headers, ",") + "\n" + Join(lines[1..], "\n");
      Some(Join(lines, "\n"))
  }

  /** A source URL the reader gives back unchanged: it is written raw, so it
      must hold no comma or line break and must not start with a quote. */
  predicate RawSafe(url: Option<string>)
  {
    Readable(Raw(Or(url, "")))
  }

  /** Values written raw, one cell each. */
  function RawCells(vs: seq<string>): (r: seq<Cell>)
    ensures |r| == |vs| && forall i :: 0 <= i < |vs| ==> r[i] == Raw(vs[i])
  {
    if vs == [] then [] else [Raw(vs[0])] + RawCells(vs[1..])
  }

  /** The header cells, all raw. */
  function HeaderCells(): (r: seq<Cell>)
    ensures |r| == |Headers| && forall i :: 0 <= i < |r| ==> r[i] == Raw(Headers[i])
  {
    RawCells(Headers)
  }

  /** The status value is written raw and reads back unchanged. */
  lemma {:induction false} StatusValueReadable(st: LeadStatus)
    ensures Readable(Raw(StatusValue(st)))
  {
    var v := StatusValue(st);
    assert v[0] != '"';
    assert Lacks(v, ',') && Lacks(v, '\n');
  }

  /** The header line reads back as the headers. */
  lemma {:induction false} HeaderCellsReadable()
    ensures EncodeAll(HeaderCells()) == Headers && Values(HeaderCells()) == Headers
    ensures AllReadable(HeaderCells())
  {
    var hc := HeaderCells();
    forall j | 0 <= j < |hc| ensures EncodeAll(hc)[j] == Headers[j] && Values(hc)[j] == Headers[j] && Readable(hc[j]) {
      HeaderCellReadable(j);
    }
    SameElements(EncodeAll(hc), Headers);
    SameElements(Values(hc), Headers);
  }

  /** Two sequences of equal length that agree at every index are equal. */
  lemma {:induction false} SameElements(a: seq<string>, b: seq<string>)
    requires |a| == |b| && forall j :: 0 <= j < |a| ==> a[j] == b[j]
    ensures a == b
  {
  }

  /** Each header is written raw and reads back unchanged. */
  lemma {:induction false} HeaderCellReadable(j: int)
    requires 0 <= j < |Headers|
    ensures Readable(HeaderCells()[j])
  {
    var h := Headers[j];
    assert HeaderCells()[j] == Raw(h);
    if j == 0 { assert h == "Nombre"; HeaderReadable0(); }
    else if j == 1 { assert h == "Dirección"; HeaderReadable1(); }
    else if j == 2 { assert h == "Teléfono"; HeaderReadable2(); }
    else if j == 3 { assert h == "Email"; HeaderReadable3(); }
    else if j == 4 { assert h == "Web"; HeaderReadable4(); }
    else if j == 5 { assert h == "Propietario/CEO"; HeaderReadable5(); }
    else if j == 6 { assert h == "Estado"; HeaderReadable6(); }
    else { assert h == "Map URL"; HeaderReadable7(); }
  }

  // One lemma per header literal: checking all eight literals in one proof
  // costs the solver several times what eight separate proofs do.
  lemma {:induction false} HeaderReadable0() ensures Readable(Raw("Nombre")) { }
  lemma {:induction false} HeaderReadable1() ensures Readable(Raw("Dirección")) { }
  lemma {:induction false} HeaderReadable2() ensures Readable(Raw("Teléfono")) { }
  lemma {:induction false} HeaderReadable3() ensures Readable(Raw("Email")) { }
  lemma {:induction false} HeaderReadable4() ensures Readable(Raw("Web")) { }
  lemma {:induction false} HeaderReadable5() ensures Readable(Raw("Propietario/CEO")) { }
  lemma {:induction false} HeaderReadable6() ensures Readable(Raw("Estado")) { }
  lemma {:induction false} HeaderReadable7() ensures Readable(Raw("Map URL")) { }

  /** A lead's cells read back as its fields when its source URL is safe. */
  lemma {:induction false} CellsReadable(lead: Lead)
    requires RawSafe(lead.sourceUrl)
    ensures AllReadable(Cells(lead))
    ensures Values(Cells(lead)) == Fields(lead)
  {
    var c := Cells(lead);
    StatusValueReadable(lead.status);
    assert c[6] == Raw(StatusValue(lead.status));
    assert c[7] == Raw(Or(lead.sourceUrl, ""));
    forall j | 0 <= j < |c| ensures Readable(c[j]) {
      if j < 6 { assert c[j].Quoted?; }
    }
    CellsHoldFields(lead);
  }

  /** The cell rows of the export: the header, then one row per lead. */
  function Table(leads: seq<Lead>): seq<seq<Cell>>
  {
    [HeaderCells()] + CellRows(leads)
  }

  /** The lines of the leads' cell rows are the leads' lines. */
  lemma {:induction false} LinesOfCellRows(leads: seq<Lead>)
    ensures Lines(CellRows(leads)) == Rows(leads)
  {
    var a := Lines(CellRows(leads));
    var b := Rows(leads);
    assert |a| == |b|;
    forall j | 0 <= j < |a| ensures a[j] == b[j] { }
  }

  /** A lead's line reads back as exactly its eight fields, unless its raw
      source URL holds a comma or a line break, or starts with a quote. */
  lemma {:induction false} RowReadsBack(lead: Lead)
    requires RawSafe(lead.sourceUrl)
    ensures ReadRecord(Row(lead)) == Some((Fields(lead), [], false))
  {
    CellsReadable(lead);
    ReadRecordEncoded(Cells(lead), []);
    assert Row(lead) + [] == Row(lead);
  }

  /** A lead's cells hold its fields, in column order. */
  lemma {:induction false} CellsHoldFields(lead: Lead)
    ensures Values(Cells(lead)) == Fields(lead)
  {
    var v := Values(Cells(lead));
    var f := Fields(lead);
    forall j | 0 <= j < |f| ensures v[j] == f[j] { }
    SameElements(v, f);
  }

  /** The export text is the table's lines joined with line breaks. */
  lemma {:induction false} ExportIsTable(leads: seq<Lead>)
    requires leads != []
    ensures ExportCsv(leads).value == Join(Lines(Table(leads)), "\n")
  {
    HeaderCellsReadable();
    LinesCons(HeaderCells(), CellRows(leads));
    LinesOfCellRows(leads);
  }

  /** Every row of the table is readable when the source URLs are safe. */
  lemma {:induction false} TableReadable(leads: seq<Lead>)
    requires forall i :: 0 <= i < |leads| ==> RawSafe(leads[i].sourceUrl)
    ensures forall i :: 0 <= i < |Table(leads)| ==> |Table(leads)[i]| > 0 && AllReadable(Table(leads)[i])
  {
    var rows := Table(leads);
    HeaderCellsReadable();
    forall i | 0 <= i < |rows| ensures |rows[i]| > 0 && AllReadable(rows[i]) {
      if i > 0 {
        assert rows[i] == CellRows(leads)[i - 1] == Cells(leads[i - 1]);
        CellsReadable(leads[i - 1]);
      }
    }
  }

  /** The values of the leads' cell rows are the leads' fields, when the
      source URLs are safe. */
  lemma {:induction false} ValuesOfCellRows(leads: seq<Lead>)
    requires forall i :: 0 <= i < |leads| ==> RawSafe(leads[i].sourceUrl)
    ensures ValueRows(CellRows(leads)) == FieldRows(leads)
  {
    var a := ValueRows(CellRows(leads));
    var b := FieldRows(leads);
    assert |a| == |b|;
    forall j | 0 <= j < |a| ensures a[j] == b[j] {
      CellsReadable(leads[j]);
    }
  }

  /** The table's values are the headers and each lead's fields. */
  lemma {:induction false} TableValues(leads: seq<Lead>)
    requires forall i :: 0 <= i < |leads| ==> RawSafe(leads[i].sourceUrl)
    ensures ValueRows(Table(leads)) == [Headers] + FieldRows(leads)
  {
    HeaderCellsReadable();
    ValueRowsCons(HeaderCells(), CellRows(leads));
    ValuesOfCellRows(leads);
  }

  /** Reading the export back yields the header and, for every lead, its
      eight fields with every quote restored, provided the raw-written
      source URLs hold no separator. */
  lemma {:induction false} ExportRoundTrip(leads: seq<Lead>)
    requires leads != []
    requires forall i :: 0 <= i < |leads| ==> RawSafe(leads[i].sourceUrl)
    ensures ReadDocument(ExportCsv(leads).value)
         == Some([Headers] + FieldRows(leads))
  {
    ExportIsTable(leads);
    TableReadable(leads);
    ReadDocumentEncoded(Table(leads));
    TableValues(leads);
  }

  /** Splitting a raw cell at a comma leaves the encoded line unchanged. */
  lemma {:induction false} SplitLastCell(lead: Lead, a: string, b: string)
    requires lead.sourceUrl == Some(a + "," + b)
    ensures Row(lead) == Join(EncodeAll(Cells(lead)[..7] + [Raw(a), Raw(b)]), ",")
  {
    var first := Cells(lead)[..7];
    assert Cells(lead) == first + [Raw(a + "," + b)];
    EncodeAllAppend(first, [Raw(a + "," + b)]);
    EncodeAllAppend(first, [Raw(a), Raw(b)]);
    assert EncodeAll([Raw(a + "," + b)]) == [a + "," + b];
    assert EncodeAll([Raw(a), Raw(b)]) == [a, b];
    JoinSplitLast(EncodeAll(first), a, b, ",");
  }

  /** The split cells are readable and read back as the first seven fields and the two URL parts. */
  lemma {:induction false} SplitCellsRead(lead: Lead, a: string, b: string)
    requires Readable(Raw(a)) && Readable(Raw(b))
    ensures AllReadable(Cells(lead)[..7] + [Raw(a), Raw(b)])
    ensures Values(Cells(lead)[..7] + [Raw(a), Raw(b)]) == Fields(lead)[..7] + [a, b]
  {
    StatusValueReadable(lead.status);
  }

  /** The raw source URL is not escaped: one containing a comma reads back
      as two fields, so the line has nine fields instead of eight. */
  lemma {:induction false} CommaInSourceUrlSplitsRow(lead: Lead, a: string, b: string)
    requires lead.sourceUrl == Some(a + "," + b)
    requires Readable(Raw(a)) && Readable(Raw(b))
    ensures ReadRecord(Row(lead)) == Some((Fields(lead)[..7] + [a, b], [], false))
  {
    var cs := Cells(lead)[..7] + [Raw(a), Raw(b)];
    SplitLastCell(lead, a, b);
    SplitCellsRead(lead, a, b);
    ReadRecordEncoded(cs, []);
    assert Row(lead) + [] == Row(lead);
  }
}

=== FILE: orchestrator.dfy ===
/** The application state and its transitions (App.tsx): a search that
    replaces the collection, single-lead enrichment with an optimistic
    Enriching step, and bulk enrichment of the pending leads in sequential
    batches of three. Each single-lead enrichment is one atomic step; the
    remote answers are inputs. */
module Orchestrator {
  import opened Wrappers
  import opened Types
  import opened Discovery
  import opened Enrichment

  const BatchSize: nat := 3

  const NoResultsMessage := "No se encontraron negocios con esos criterios. Intenta ampliar la ubicación."
  const SearchFailedMessage := "Ocurrió un error al buscar en Google Maps. Por favor verifica tu API Key."

  /** The component state: the collection, the two busy flags and the banner. */
  datatype AppState = AppState(leads: seq<Lead>, isSearching: bool, isEnriching: bool, error: Option<string>)

  // ---------------------------------------------------------------------
  // Search.

  /** The synchronous start of `handleSearch`: busy, no banner, no leads. */
  function BeginSearch(s: AppState): (r: AppState)
    ensures r.leads == [] && r.isSearching && r.error == None
    ensures r.isEnriching == s.isEnriching
  {
    s.(isSearching := true, error := None, leads := [])
  }

  /** The end of `handleSearch` once discovery settled. */
  function FinishSearch(s: AppState, found: Result<seq<Lead>, DiscoveryError>): (r: AppState)
    ensures !r.isSearching && r.isEnriching == s.isEnriching
    ensures found.Failure? ==> r.leads == s.leads && r.error == Some(SearchFailedMessage)
    ensures found.Success? ==> r.leads == found.value
    ensures found.Success? && found.value == [] ==> r.error == Some(NoResultsMessage)
    ensures found.Success? && found.value != [] ==> r.error == s.error
  {
    match found
    case Failure(_) => s.(error := Some(SearchFailedMessage), isSearching := false)
    case Success(results) =>
      s.(error := if |results| == 0 then Some(NoResultsMessage) else s.error,
         leads := results, isSearching := false)
  }

  /** `handleSearch`: the old collection is discarded; the new one is the
      discovery result, or stays empty with an error banner. With a supply
      of distinct fresh ids, the new collection has distinct ids. */
  function Search(s: AppState, call: DiscoveryCall, ids: seq<string>): (r: AppState)
    requires call.Responded? ==> |ChunksOf(call.response)| <= |ids|
    ensures !r.isSearching && r.isEnriching == s.isEnriching
    ensures call.CallFailed? ==> r.leads == [] && r.error == Some(SearchFailedMessage)
    ensures call.Responded? ==> r.leads == FindBusinesses(call, ids).value
    ensures call.Responded? ==> (r.error == Some(NoResultsMessage) <==> r.leads == [])
    ensures call.Responded? && r.leads != [] ==> r.error == None
    ensures (forall i, j :: 0 <= i < j < |ids| ==> ids[i] != ids[j]) ==> UniqueIds(r.leads)
  {
    FinishSearch(BeginSearch(s), FindBusinesses(call, ids))
  }

  // ---------------------------------------------------------------------
  // Single-lead enrichment.

  /** `leads.find(l => l.id === id)`. */
  function FindById(leads: seq<Lead>, id: string): (r: Option<Lead>)
    ensures r.Some? ==> r.value in leads && r.value.id == id
    ensures r.None? <==> forall i :: 0 <= i < |leads| ==> leads[i].id != id
    ensures r.Some? && UniqueIds(leads) ==> forall i :: 0 <= i < |leads| && leads[i].id == id ==> leads[i] == r.value
    ensures r.Some? ==> exists k :: 0 <= k < |leads| && leads[k] == r.value && forall j :: 0 <= j < k ==> leads[j].id != id
  {
    if leads == [] then None
    else if leads[0].id == id then Some(leads[0])
    else FindById(leads[1..], id)
  }

  /** `prev.map(l => l.id === id ? { ...l, status } : l)`. */
  function SetStatusById(leads: seq<Lead>, id: string, status: LeadStatus): (r: seq<Lead>)
    ensures |r| == |leads|
    ensures forall i :: 0 <= i < |leads| ==> r[i].id == leads[i].id
    ensures forall i :: 0 <= i < |leads| && leads[i].id != id ==> r[i] == leads[i]
    ensures forall i :: 0 <= i < |leads| && leads[i].id == id ==> r[i] == leads[i].(status := status)
  {
    if leads == [] then []
    else [if leads[0].id == id then leads[0].(status := status) else leads[0]] + SetStatusById(leads[1..], id, status)
  }

  /** `prev.map(l => l.id === id ? lead : l)`. */
  function ReplaceById(leads: seq<Lead>, id: string, lead: Lead): (r: seq<Lead>)
    ensures |r| == |leads|
    ensures forall i :: 0 <= i < |leads| && leads[i].id != id ==> r[i] == leads[i]
    ensures forall i :: 0 <= i < |leads| && leads[i].id == id ==> r[i] == lead
  {
    if leads == [] then []
    else [if leads[0].id == id then lead else leads[0]] + ReplaceById(leads[1..], id, lead)
  }

  /** How the awaited enrichment settled. */
  datatype Settlement = Resolved(lead: Lead) | Rejected

  /** The write-back of `handleEnrichLead`: the result replaces the lead by
      id; a rejection marks it Failed. */
  function WriteBack(leads: seq<Lead>, id: string, outcome: Settlement): (r: seq<Lead>)
    ensures |r| == |leads|
    ensures forall i :: 0 <= i < |leads| && leads[i].id != id ==> r[i] == leads[i]
    ensures outcome.Resolved? ==> forall i :: 0 <= i < |leads| && leads[i].id == id ==> r[i] == outcome.lead
    ensures outcome.Rejected? ==> forall i :: 0 <= i < |leads| && leads[i].id == id ==> r[i] == leads[i].(status := Failed)
  {
    match outcome
    case Resolved(lead) => ReplaceById(leads, id, lead)
    case Rejected => SetStatusById(leads, id, Failed)
  }

  /** `handleEnrichLead(id)` as one atomic step: the lead is looked up in
      `snapshot` (the collection its closure captured), set Enriching in
      `current`, enriched, and written back by id. */
  function EnrichOne(snapshot: seq<Lead>, current: seq<Lead>, id: string, reply: Reply, parse: string -> Decoded): (r: seq<Lead>)
    ensures FindById(snapshot, id).None? ==> r == current
    ensures |r| == |current|
    ensures forall i :: 0 <= i < |current| ==> r[i].id == current[i].id
    ensures forall i :: 0 <= i < |current| && current[i].id != id ==> r[i] == current[i]
    ensures FindById(snapshot, id).Some? ==>
              forall i :: 0 <= i < |current| && current[i].id == id ==>
                r[i] == EnrichLead(FindById(snapshot, id).value, reply, parse)
                && (r[i].status == Completed || r[i].status == Failed)
  {
    match FindById(snapshot, id)
    case None => current
    case Some(lead) =>
      var optimistic := SetStatusById(current, id, Enriching);
      WriteBack(optimistic, id, Resolved(EnrichLead(lead, reply, parse)))
  }

  /** The optimistic step is fully superseded by the write-back of a result. */
  lemma {:induction false} ResultSupersedesOptimistic(leads: seq<Lead>, id: string, lead: Lead)
    ensures WriteBack(SetStatusById(leads, id, Enriching), id, Resolved(lead)) == ReplaceById(leads, id, lead)
  {
    var a := WriteBack(SetStatusById(leads, id, Enriching), id, Resolved(lead));
    var b := ReplaceById(leads, id, lead);
    assert |a| == |b|;
    forall i | 0 <= i < |a| ensures a[i] == b[i] { }
  }

  /** A result arriving for an id the collection no longer holds (a newer
      search replaced it) changes nothing. */
  lemma {:induction false} StaleWriteBackIgnored(leads: seq<Lead>, id: string, outcome: Settlement)
    requires forall i :: 0 <= i < |leads| ==> leads[i].id != id
    ensures WriteBack(leads, id, outcome) == leads
  {
    var r := WriteBack(leads, id, outcome);
    assert |r| == |leads|;
    forall i | 0 <= i < |r| ensures r[i] == leads[i] { }
  }

  /** Enrichments of two different leads do not interfere: applying them
      in either order gives the same collection. */
  lemma {:induction false} EnrichOneCommutes(snapshot: seq<Lead>, current: seq<Lead>, a: string, b: string,
                          ra: Reply, rb: Reply, parse: string -> Decoded)
    requires a != b
    ensures EnrichOne(snapshot, EnrichOne(snapshot, current, a, ra, parse), b, rb, parse)
         == EnrichOne(snapshot, EnrichOne(snapshot, current, b, rb, parse), a, ra, parse)
  {
    var x := EnrichOne(snapshot, EnrichOne(snapshot, current, a, ra, parse), b, rb, parse);
    var y := EnrichOne(snapshot, EnrichOne(snapshot, current, b, rb, parse), a, ra, parse);
    assert |x| == |y|;
    forall i | 0 <= i < |x| ensures x[i] == y[i] { }
  }

  // ---------------------------------------------------------------------
  // Bulk enrichment.

  /** `leads.filter(l => l.status === Discovered || l.status === Failed)`. */
  function SelectPending(leads: seq<Lead>): (r: seq<Lead>)
    ensures |r| <= |leads|
    ensures forall k :: 0 <= k < |r| ==> Pending(r[k]) && r[k] in leads
    ensures forall i :: 0 <= i < |leads| && Pending(leads[i]) ==> leads[i] in r
  {
    if leads == [] then []
    else (if Pending(leads[0]) then [leads[0]] else []) + SelectPending(leads[1..])
  }

  /** The selection of a concatenation is the concatenation of the
      selections: with the one-lead case of the body, this pins the
      selection to the collection's order and multiplicity. */
  lemma {:induction false} SelectPendingAppend(a: seq<Lead>, b: seq<Lead>)
    ensures SelectPending(a + b) == SelectPending(a) + SelectPending(b)
  {
    if a != [] {
      SelectPendingAppend(a[1..], b);
      assert (a + b)[0] == a[0];
      assert (a + b)[1..] == a[1..] + b;
      var head := if Pending(a[0]) then [a[0]] else [];
      assert SelectPending(a + b) == head + (SelectPending(a[1..]) + SelectPending(b));
      assert SelectPending(a) == head + SelectPending(a[1..]);
    } else {
      assert a + b == b;
    }
  }

  /** The concatenation of a sequence of batches. */
  function Flatten<T>(batches: seq<seq<T>>): seq<T>
  {
    if batches == [] then [] else batches[0] + Flatten(batches[1..])
  }

  /** The smaller of two integers. */
  function Min(a: int, b: int): int
  {
    if a <= b then a else b
  }

  lemma {:induction false} MulBounds(k: int, d: int)
    requires d > 0
    ensures k >= 1 ==> k * d >= d
    ensures k <= -1 ==> k * d <= -d
  {
  }

  /** Integer division is determined by quotient and remainder. */
  lemma {:induction false} DivUnique(y: int, d: int, a: int, b: int)
    requires d > 0 && 0 <= b < d && y == a * d + b
    ensures y / d == a
  {
    var q := y / d;
    var r := y % d;
    assert y == q * d + r;
    assert (q - a) * d == b - r;
    MulBounds(q - a, d);
  }

  /** Adding one more full batch adds one to the ceiling. */
  lemma {:induction false} CeilStep(m: nat, size: nat)
    requires size > 0
    ensures (m + size + size - 1) / size == (m + size - 1) / size + 1
  {
    var x := m + size - 1;
    var q := x / size;
    var r := x % size;
    assert x == q * size + r;
    assert x + size == (q + 1) * size + r;
    DivUnique(x + size, size, q + 1, r);
  }

  /** The batches `s.slice(i, i + size)` for `i = 0, size, 2 * size, ...`. */
  function Batches<T>(s: seq<T>, size: nat): seq<seq<T>>
    requires size > 0
    decreases |s|
  {
    if |s| <= size then (if s == [] then [] else [s])
    else [s[..size]] + Batches(s[size..], size)
  }

  /** The batches concatenate back to the whole sequence. */
  lemma {:induction false} BatchesFlatten<T>(s: seq<T>, size: nat)
    requires size > 0
    decreases |s|
    ensures Flatten(Batches(s, size)) == s
  {
    if |s| > size {
      var rest := Batches(s[size..], size);
      var r := [s[..size]] + rest;
      BatchesFlatten(s[size..], size);
      assert r[0] == s[..size] && r[1..] == rest;
      assert s == s[..size] + s[size..];
    }
  }

  /** There are `ceil(|s| / size)` batches. */
  lemma {:induction false} BatchesCount<T>(s: seq<T>, size: nat)
    requires size > 0
    decreases |s|
    ensures |Batches(s, size)| == (|s| + size - 1) / size
  {
    if s == [] {
      DivUnique(size - 1, size, 0, size - 1);
    } else if |s| <= size {
      DivUnique(|s| + size - 1, size, 1, |s| - 1);
    } else {
      BatchesCount(s[size..], size);
      CeilStep(|s| - size, size);
    }
  }

  /** No batch is empty or larger than `size`, and all but the last are full. */
  lemma {:induction false} BatchesSizes<T>(s: seq<T>, size: nat)
    requires size > 0
    decreases |s|
    ensures forall k :: 0 <= k < |Batches(s, size)| ==> 0 < |Batches(s, size)[k]| <= size
    ensures forall k :: 0 <= k < |Batches(s, size)| - 1 ==> |Batches(s, size)[k]| == size
  {
    if |s| > size {
      var rest := Batches(s[size..], size);
      BatchesSizes(s[size..], size);
      assert Batches(s, size) == [s[..size]] + rest;
      forall k | 1 <= k < |Batches(s, size)|
        ensures Batches(s, size)[k] == rest[k - 1]
      {
      }
    }
  }

  /** The batches of a suffix start with its first slice. */
  lemma {:induction false} BatchesStep<T>(s: seq<T>, i: nat, size: nat)
    requires size > 0 && i < |s|
    ensures Batches(s[i..], size) == [s[i..Min(i + size, |s|)]] + Batches(s[Min(i + size, |s|)..], size)
  {
    var t := s[i..];
    if |t| <= size {
      assert t == s[i..Min(i + size, |s|)];
      assert s[Min(i + size, |s|)..] == [];
    } else {
      assert t[..size] == s[i..i + size];
      assert t[size..] == s[i + size..];
    }
  }

  /** The batches run so far, followed by the batches of what remains
      from position `i`, are all the batches of `s`. */
  ghost predicate RanBatches<T>(s: seq<T>, i: nat, done: seq<seq<T>>)
  {
    done + Batches(s[Min(i, |s|)..], BatchSize) == Batches(s, BatchSize)
  }

  /** Taking the next slice keeps the batches run so far a prefix of all batches. */
  lemma {:induction false} BatchesAdvance<T>(s: seq<T>, i: nat, done: seq<seq<T>>)
    requires i < |s| && RanBatches(s, i, done)
    ensures RanBatches(s, i + BatchSize, done + [s[i..Min(i + BatchSize, |s|)]])
  {
    BatchesStep(s, i, BatchSize);
    var next := Min(i + BatchSize, |s|);
    assert Min(i + BatchSize, |s|) == next && Min(i, |s|) == i;
    var tail := Batches(s[next..], BatchSize);
    assert (done + [s[i..next]]) + tail == done + ([s[i..next]] + tail);
  }

  /** Once the position passes the end, the batches run are all of them. */
  lemma {:induction false} RanAllBatches<T>(s: seq<T>, i: nat, done: seq<seq<T>>)
    requires i >= |s| && RanBatches(s, i, done)
    ensures done == Batches(s, BatchSize)
  {
    assert s[Min(i, |s|)..] == [];
  }

  /** Seven pending leads make batches of 3, 3 and 1. */
  lemma {:induction false} SevenMakeThreeThreeOne<T>(s: seq<T>)
    requires |s| == 7
    ensures |Batches(s, 3)| == 3
    ensures |Batches(s, 3)[0]| == 3 && |Batches(s, 3)[1]| == 3 && |Batches(s, 3)[2]| == 1
  {
    assert Batches(s, 3) == [s[..3]] + Batches(s[3..], 3);
    assert Batches(s[3..], 3) == [s[3..][..3]] + Batches(s[3..][3..], 3);
    assert Batches(s[3..][3..], 3) == [s[3..][3..]];
  }

  /** After the leads whose ids are in `done` were enriched from the snapshot,
      and no others. */
  ghost predicate Progress(snapshot: seq<Lead>, leads: seq<Lead>, done: set<string>,
                           respond: string -> Reply, parse: string -> Decoded)
  {
    && |leads| == |snapshot|
    && forall k :: 0 <= k < |snapshot| ==>
         leads[k] == (if snapshot[k].id in done then EnrichLead(snapshot[k], respond(snapshot[k].id), parse) else snapshot[k])
  }

  /** Progress keeps every lead's id where it was. */
  lemma {:induction false} ProgressKeepsIds(snapshot: seq<Lead>, leads: seq<Lead>, done: set<string>,
                                            respond: string -> Reply, parse: string -> Decoded)
    requires Progress(snapshot, leads, done, respond, parse)
    ensures forall k :: 0 <= k < |snapshot| ==> leads[k].id == snapshot[k].id
  {
  }

  /** With distinct ids, looking up a member's id finds that member. */
  lemma {:induction false} FindMember(leads: seq<Lead>, x: Lead)
    requires UniqueIds(leads) && x in leads
    ensures FindById(leads, x.id) == Some(x)
    ensures forall k :: 0 <= k < |leads| && leads[k].id == x.id ==> leads[k] == x
  {
    var k0 :| 0 <= k0 < |leads| && leads[k0] == x;
    assert FindById(leads, x.id).Some?;
  }

  /** One more enrichment extends the progress by that lead's id. */
  lemma {:induction false} ProgressStep(snapshot: seq<Lead>, leads: seq<Lead>, done: set<string>, x: Lead,
                                        respond: string -> Reply, parse: string -> Decoded)
    requires UniqueIds(snapshot) && x in snapshot
    requires Progress(snapshot, leads, done, respond, parse)
    ensures Progress(snapshot, EnrichOne(snapshot, leads, x.id, respond(x.id), parse), done + {x.id}, respond, parse)
  {
    var r := EnrichOne(snapshot, leads, x.id, respond(x.id), parse);
    FindMember(snapshot, x);
    ProgressKeepsIds(snapshot, leads, done, respond, parse);
    forall k | 0 <= k < |snapshot|
      ensures r[k] == (if snapshot[k].id in done + {x.id} then EnrichLead(snapshot[k], respond(snapshot[k].id), parse) else snapshot[k])
    {
      if snapshot[k].id == x.id {
        assert r[k] == EnrichLead(x, respond(x.id), parse);
      } else {
        assert r[k] == leads[k];
      }
    }
  }

  /** The ids of a sequence of leads. */
  ghost function IdSet(leads: seq<Lead>): set<string>
  {
    set l | l in leads :: l.id
  }

  /** Growing a prefix by one lead adds its id. */
  lemma {:induction false} IdSetExtend(s: seq<Lead>, c: nat)
    requires c < |s|
    ensures IdSet(s[..c + 1]) == IdSet(s[..c]) + {s[c].id}
  {
    assert s[..c + 1] == s[..c] + [s[c]];
  }

  /** With distinct ids, a lead's id is selected exactly when the lead is pending. */
  lemma {:induction false} SelectedIdsArePending(snapshot: seq<Lead>)
    requires UniqueIds(snapshot)
    ensures forall k :: 0 <= k < |snapshot| ==> (snapshot[k].id in IdSet(SelectPending(snapshot)) <==> Pending(snapshot[k]))
  {
    var pending := SelectPending(snapshot);
    forall k | 0 <= k < |snapshot| ensures snapshot[k].id in IdSet(pending) ==> Pending(snapshot[k]) {
      if snapshot[k].id in IdSet(pending) {
        var l :| l in pending && l.id == snapshot[k].id;
        var k' :| 0 <= k' < |snapshot| && snapshot[k'] == l;
        assert k == k';
      }
    }
  }

  /** Once every selected id is done, the selected leads are enriched and
      the others untouched. */
  lemma {:induction false} ProgressComplete(snapshot: seq<Lead>, leads: seq<Lead>, respond: string -> Reply, parse: string -> Decoded)
    requires UniqueIds(snapshot)
    requires Progress(snapshot, leads, IdSet(SelectPending(snapshot)), respond, parse)
    ensures |leads| == |snapshot|
    ensures forall k :: 0 <= k < |snapshot| && !Pending(snapshot[k]) ==> leads[k] == snapshot[k]
    ensures forall k :: 0 <= k < |snapshot| && Pending(snapshot[k]) ==>
              leads[k] == EnrichLead(snapshot[k], respond(snapshot[k].id), parse)
  {
    SelectedIdsArePending(snapshot);
  }

  /** The ids of two consecutive slices are the ids of their union. */
  lemma {:induction false} IdSetSplit(s: seq<Lead>, a: nat, b: nat)
    requires a <= b <= |s|
    ensures IdSet(s[..b]) == IdSet(s[..a]) + IdSet(s[a..b])
  {
    assert s[..b] == s[..a] + s[a..b];
  }

  /** One batch of `Promise.all(batch.map(lead => handleEnrichLead(lead)))`:
      each lead of the batch is enriched from the snapshot in turn, which
      extends the progress by the batch's ids. */
  method EnrichBatch(snapshot: seq<Lead>, leads: seq<Lead>, batch: seq<Lead>, ghost done: set<string>,
                     respond: string -> Reply, parse: string -> Decoded)
    returns (r: seq<Lead>)
    requires UniqueIds(snapshot)
    requires forall k :: 0 <= k < |batch| ==> batch[k] in snapshot
    requires Progress(snapshot, leads, done, respond, parse)
    ensures Progress(snapshot, r, done + IdSet(batch), respond, parse)
  {
    r := leads;
    var j := 0;
    while j < |batch|
      invariant 0 <= j <= |batch|
      invariant Progress(snapshot, r, done + IdSet(batch[..j]), respond, parse)
    {
      var lead := batch[j];
      ProgressStep(snapshot, r, done + IdSet(batch[..j]), lead, respond, parse);
      IdSetExtend(batch, j);
      r := EnrichOne(snapshot, r, lead.id, respond(lead.id), parse);
      j := j + 1;
    }
    assert batch[..j] == batch;
  }

  /** The batching loop of `handleEnrichAll`: slices `pending` into
      batches of `BatchSize` and runs them one after another, each from the
      snapshot. Afterwards every pending id is done, and the batches run are
      exactly `Batches(pending, BatchSize)`. */
  method RunBatches(snapshot: seq<Lead>, pending: seq<Lead>, respond: string -> Reply, parse: string -> Decoded)
    returns (leads: seq<Lead>, batches: seq<seq<Lead>>)
    requires UniqueIds(snapshot)
    requires forall k :: 0 <= k < |pending| ==> pending[k] in snapshot
    ensures Progress(snapshot, leads, IdSet(pending), respond, parse)
    ensures batches == Batches(pending, BatchSize)
  {
    var n := |pending|;
    leads := snapshot;
    var i := 0;
    batches := [];
    ghost var done: set<string> := {};
    while i < n
      invariant RanBatches(pending, i, batches)
      invariant done == IdSet(pending[..Min(i, n)])
      invariant Progress(snapshot, leads, done, respond, parse)
    {
      var end := Min(i + BatchSize, n);
      var batch := pending[i..end];
      assert forall k :: 0 <= k < |batch| ==> batch[k] == pending[i + k];
      leads := EnrichBatch(snapshot, leads, batch, done, respond, parse);
      IdSetSplit(pending, i, end);
      done := done + IdSet(batch);
      BatchesAdvance(pending, i, batches);
      batches := batches + [batch];
      i := i + BatchSize;
      assert Min(i, n) == end;
    }
    RanAllBatches(pending, i, batches);
    assert pending[..Min(i, n)] == pending;
  }

  /** `handleEnrichAll`: sets the busy flag, selects the pending leads of
      the current collection, enriches them batch after batch, and clears
      the flag. Every selected lead ends as its enrichment made it
      (Completed or Failed); every other lead is untouched. Also returns the
      batches it ran. */
  method EnrichAll(s: AppState, respond: string -> Reply, parse: string -> Decoded)
    returns (r: AppState, batches: seq<seq<Lead>>)
    requires UniqueIds(s.leads)
    ensures !r.isEnriching && r.isSearching == s.isSearching && r.error == s.error
    ensures |r.leads| == |s.leads|
    ensures forall k :: 0 <= k < |s.leads| && !Pending(s.leads[k]) ==> r.leads[k] == s.leads[k]
    ensures forall k :: 0 <= k < |s.leads| && Pending(s.leads[k]) ==>
              r.leads[k] == EnrichLead(s.leads[k], respond(s.leads[k].id), parse)
              && (r.leads[k].status == Completed || r.leads[k].status == Failed)
    ensures batches == Batches(SelectPending(s.leads), BatchSize)
  {
    var st := s.(isEnriching := true);
    var snapshot := st.leads;
    var pending := SelectPending(snapshot);
    var leads;
    leads, batches := RunBatches(snapshot, pending, respond, parse);
    ProgressComplete(snapshot, leads, respond, parse);
    r := st.(leads := leads, isEnriching := false);
  }
}

=== FILE: results_table.dfy ===
/** The view logic of the results table (components/ResultsTable.tsx): the
    empty state, the status badges, the pending count behind the bulk
    button, the per-row actions and the website link. Markup, styling and
    icons are not modelled; what a row shows is reduced to the values the
    component derives from the lead. */
module ResultsTable {
  import opened Wrappers
  import opened Types
  import opened Text
  import opened Orchestrator

  // ---------------------------------------------------------------------
  // Badges.

  /** The four labels a badge can show. */
  const BadgeLabels: set<string> := {"Descubierto", "Investigando", "Completo", "Error"}

  /** The label of `getStatusBadge`, one per status: a Spanish label, not
      the stored status value. */
  function BadgeLabel(s: LeadStatus): (r: string)
    ensures r in BadgeLabels
    ensures r != StatusValue(s)
  {
    match s
    case Discovered => "Descubierto"
    case Enriching => "Investigando"
    case Completed => "Completo"
    case Failed => "Error"
  }

  /** The status a badge label stands for. */
  function BadgeStatus(text: string): (r: Option<LeadStatus>)
    ensures r.Some? ==> BadgeLabel(r.value) == text
  {
    if text == "Descubierto" then Some(Discovered)
    else if text == "Investigando" then Some(Enriching)
    else if text == "Completo" then Some(Completed)
    else if text == "Error" then Some(Failed)
    else None
  }

  /** Every status has a badge, and the badge tells the status back: the
      mapping is total and no two statuses share a label. */
  lemma {:induction false} BadgeRoundTrip(s: LeadStatus)
    ensures BadgeStatus(BadgeLabel(s)) == Some(s)
  {
    match s
    case Discovered =>
    case Enriching =>
      assert BadgeLabel(s) != "Descubierto" by { assert BadgeLabel(s)[0] != "Descubierto"[0]; }
    case Completed =>
      assert BadgeLabel(s) != "Descubierto" by { assert |BadgeLabel(s)| != |"Descubierto"|; }
      assert BadgeLabel(s) != "Investigando" by { assert |BadgeLabel(s)| != |"Investigando"|; }
    case Failed =>
      assert BadgeLabel(s) != "Descubierto" by { assert |BadgeLabel(s)| != |"Descubierto"|; }
      assert BadgeLabel(s) != "Investigando" by { assert |BadgeLabel(s)| != |"Investigando"|; }
      assert BadgeLabel(s) != "Completo" by { assert |BadgeLabel(s)| != |"Completo"|; }
  }

  /** Distinct statuses get distinct badges. */
  lemma {:induction false} BadgeInjective(s: LeadStatus, u: LeadStatus)
    ensures BadgeLabel(s) == BadgeLabel(u) ==> s == u
  {
    BadgeRoundTrip(s);
    BadgeRoundTrip(u);
  }

  // ---------------------------------------------------------------------
  // Counting and the bulk button.

  /** `leads.filter(l => l.status === Discovered).length`. */
  function PendingCount(leads: seq<Lead>): (r: nat)
    ensures r <= |leads|
    ensures r == 0 <==> forall i :: 0 <= i < |leads| ==> leads[i].status != Discovered
  {
    if leads == [] then 0
    else (if leads[0].status == Discovered then 1 else 0) + PendingCount(leads[1..])
  }

  /** The number of Failed leads. */
  function FailedCount(leads: seq<Lead>): (r: nat)
    ensures r == 0 <==> forall i :: 0 <= i < |leads| ==> leads[i].status != Failed
  {
    if leads == [] then 0
    else (if leads[0].status == Failed then 1 else 0) + FailedCount(leads[1..])
  }

  /** The count shown next to the bulk button leaves out the Failed leads
      that bulk enrichment does pick up: it equals the size of the selection
      less the Failed leads, so it is exact only when none has failed. */
  lemma {:induction false} PendingCountMissesFailed(leads: seq<Lead>)
    ensures PendingCount(leads) + FailedCount(leads) == |SelectPending(leads)|
    ensures PendingCount(leads) == |SelectPending(leads)| <==> forall i :: 0 <= i < |leads| ==> leads[i].status != Failed
  {
    if leads != [] {
      PendingCountMissesFailed(leads[1..]);
    }
  }

  /** The "Investigar Todo" button: the count it shows and whether it is disabled. */
  datatype BulkButton = BulkButton(count: nat, disabled: bool)

  /** The button is rendered only when some lead is Discovered, and is
      disabled while processing. */
  function BulkButtonFor(leads: seq<Lead>, isProcessing: bool): (r: Option<BulkButton>)
    ensures r.Some? <==> exists i :: 0 <= i < |leads| && leads[i].status == Discovered
    ensures r.Some? ==> r.value.count > 0 && r.value.disabled == isProcessing
    ensures r.Some? ==> r.value.count == PendingCount(leads)
  {
    var n := PendingCount(leads);
    if n > 0 then Some(BulkButton(n, isProcessing)) else None
  }

  /** When every pending lead has failed, the bulk button is hidden although
      bulk enrichment would still retry all of them. */
  lemma {:induction false} OnlyFailedHidesBulkButton(leads: seq<Lead>, isProcessing: bool)
    requires forall i :: 0 <= i < |leads| ==> leads[i].status != Discovered
    requires exists i :: 0 <= i < |leads| && leads[i].status == Failed
    ensures BulkButtonFor(leads, isProcessing).None?
    ensures |SelectPending(leads)| > 0
  {
    var i :| 0 <= i < |leads| && leads[i].status == Failed;
    assert leads[i] in SelectPending(leads);
  }

  // ---------------------------------------------------------------------
  // Row actions.

  /** The two row buttons: "Investigar" and "Reintentar". */
  datatype ActionKind = Investigate | Retry

  /** A row button and whether it is disabled. */
  datatype RowAction = RowAction(kind: ActionKind, disabled: bool)

  /** The action cell of a row: Investigate for a Discovered lead, Retry for
      a Failed one, nothing while Enriching or once Completed; both are
      disabled while processing. */
  function ActionFor(status: LeadStatus, isProcessing: bool): (r: Option<RowAction>)
    ensures r.Some? <==> status == Discovered || status == Failed
    ensures r.Some? ==> (r.value.kind == Investigate <==> status == Discovered)
    ensures r.Some? ==> (r.value.kind == Retry <==> status == Failed)
    ensures r.Some? ==> r.value.disabled == isProcessing
  {
    match status
    case Discovered => Some(RowAction(Investigate, isProcessing))
    case Failed => Some(RowAction(Retry, isProcessing))
    case Enriching => None
    case Completed => None
  }

  // ---------------------------------------------------------------------
  // Links.

  /** The href of the website link: the stored value when it starts with
      `http`, otherwise the value behind `https://`; no link for an absent
      or empty website. */
  function WebsiteHref(website: Option<string>): (r: Option<string>)
    ensures r.Some? <==> Truthy(website)
    ensures r.Some? ==> StartsWith(r.value, "http")
    ensures r.Some? ==> |website.value| <= |r.value| && r.value[|r.value| - |website.value|..] == website.value
    ensures r.Some? && StartsWith(website.value, "http") ==> r.value == website.value
    ensures r.Some? && !StartsWith(website.value, "http") ==> r.value == "https://" + website.value
  {
    match website
    case None => None
    case Some(w) =>
      if w == "" then None
      else if StartsWith(w, "http") then Some(w)
      else
        var h := "https://" + w;
        assert h[..4] == "http";
        assert h[|h| - |w|..] == w;
        Some(h)
  }

  /** Normalising a normalised href changes nothing. */
  lemma {:induction false} WebsiteHrefIdempotent(website: Option<string>)
    requires Truthy(website)
    ensures WebsiteHref(WebsiteHref(website)) == WebsiteHref(website)
  {
    var h := WebsiteHref(website).value;
    assert h != "";
  }

  // ---------------------------------------------------------------------
  // The whole component.

  /** What one row derives from its lead. */
  datatype RowView = RowView(id: string, badge: string, action: Option<RowAction>,
                             websiteHref: Option<string>, mapsLink: Option<string>)

  /** The component: the empty state, or the table with its count, its
      bulk button and one row per lead in collection order. */
  datatype View = EmptyState | Table(count: nat, bulk: Option<BulkButton>, rows: seq<RowView>)

  /** The row of a lead. The maps link is shown only for a truthy source URL. */
  function RowOf(lead: Lead, isProcessing: bool): RowView
  {
    RowView(lead.id, BadgeLabel(lead.status), ActionFor(lead.status, isProcessing),
            WebsiteHref(lead.website), if Truthy(lead.sourceUrl) then lead.sourceUrl else None)
  }

  /** The rows of a collection, in order. */
  function RowsOf(leads: seq<Lead>, isProcessing: bool): (r: seq<RowView>)
    ensures |r| == |leads|
    ensures forall i :: 0 <= i < |leads| ==> r[i] == RowOf(leads[i], isProcessing)
  {
    if leads == [] then [] else [RowOf(leads[0], isProcessing)] + RowsOf(leads[1..], isProcessing)
  }

  /** `ResultsTable`: the empty state exactly when there are no leads. */
  function Render(leads: seq<Lead>, isProcessing: bool): (r: View)
    ensures r.EmptyState? <==> leads == []
    ensures r.Table? ==> r.count == |leads| && |r.rows| == |leads|
    ensures r.Table? ==> forall i :: 0 <= i < |leads| ==> r.rows[i].id == leads[i].id
  {
    if |leads| == 0 then EmptyState
    else Table(|leads|, BulkButtonFor(leads, isProcessing), RowsOf(leads, isProcessing))
  }

  /** The ids of the rows that offer an action, in order. */
  function ActionIds(rows: seq<RowView>): seq<string>
  {
    if rows == [] then []
    else (if rows[0].action.Some? then [rows[0].id] else []) + ActionIds(rows[1..])
  }

  /** The ids of a sequence of leads, in order. */
  function Ids(leads: seq<Lead>): (r: seq<string>)
    ensures |r| == |leads|
  {
    if leads == [] then [] else [leads[0].id] + Ids(leads[1..])
  }

  /** The rows offering an action are exactly the leads bulk enrichment
      selects, in the same order. */
  lemma {:induction false} ActionRowsAreSelection(leads: seq<Lead>, isProcessing: bool)
    ensures ActionIds(RowsOf(leads, isProcessing)) == Ids(SelectPending(leads))
  {
    if leads != [] {
      var rows := RowsOf(leads, isProcessing);
      ActionRowsAreSelection(leads[1..], isProcessing);
      assert rows[1..] == RowsOf(leads[1..], isProcessing);
      var sel := SelectPending(leads);
      if Pending(leads[0]) {
        assert sel == [leads[0]] + SelectPending(leads[1..]);
        assert sel[1..] == SelectPending(leads[1..]);
      } else {
        assert sel == SelectPending(leads[1..]);
      }
    }
  }

  /** In the rendered table, the rows with an action are the bulk selection. */
  lemma {:induction false} RenderedActionsAreSelection(leads: seq<Lead>, isProcessing: bool)
    requires leads != []
    ensures ActionIds(Render(leads, isProcessing).rows) == Ids(SelectPending(leads))
  {
    ActionRowsAreSelection(leads, isProcessing);
  }
}

=== FILE: text.dfy ===
/** String searching: the pieces of JavaScript's `indexOf`, `lastIndexOf`,
    `startsWith` and regular-expression matching that the model needs. */
module Text {
  import opened Wrappers

  /** `pat` occurs in `text` starting at index `i`. */
  predicate OccursAt(text: string, pat: string, i: int)
  {
    0 <= i && i + |pat| <= |text| && text[i..i + |pat|] == pat
  }

  /** `text` starts with `prefix` (`String.prototype.startsWith`). */
  predicate StartsWith(text: string, prefix: string)
  {
    |prefix| <= |text| && text[..|prefix|] == prefix
  }

  /** The first index at or after `from` where `pat` occurs. */
  function IndexOfFrom(text: string, pat: string, from: nat): (r: Option<nat>)
    decreases |text| - from
    ensures r.Some? ==> from <= r.value && OccursAt(text, pat, r.value)
    ensures forall j :: from <= j && (r.None? || j < r.value) ==> !OccursAt(text, pat, j)
  {
    if |text| < from + |pat| then None
    else if text[from..from + |pat|] == pat then Some(from)
    else IndexOfFrom(text, pat, from + 1)
  }

  /** The last index of character `c` in `text`. */
  function LastIndexOf(text: string, c: char): (r: Option<nat>)
    ensures r.Some? ==> r.value < |text| && text[r.value] == c
    ensures forall j :: 0 <= j < |text| && (r.None? || r.value < j) ==> text[j] != c
  {
    if text == [] then None
    else if text[|text| - 1] == c then Some(|text| - 1)
    else LastIndexOf(text[..|text| - 1], c)
  }

  /** The regular expression `open([\s\S]*?)close` can match at index `p`. */
  ghost predicate LazyMatchesAt(text: string, open: string, close: string, p: int)
  {
    OccursAt(text, open, p) && exists q :: p + |open| <= q <= |text| && OccursAt(text, close, q)
  }

  /** The match of `open([\s\S]*?)close` that `String.prototype.match`
      reports when searching from `from`: the leftmost start `p` at which the
      pattern matches, and the first `close` after the opening delimiter
      (the lazy group stops there). The result is `(p, q)`, the group being
      `text[p + |open| .. q]`. */
  function LazyMatchFrom(text: string, open: string, close: string, from: nat): (r: Option<(nat, nat)>)
    requires |open| > 0
    decreases |text| - from
    ensures r.Some? ==> from <= r.value.0 && r.value.0 + |open| <= r.value.1
    ensures r.Some? ==> OccursAt(text, open, r.value.0) && OccursAt(text, close, r.value.1)
    ensures r.Some? ==> forall q :: r.value.0 + |open| <= q < r.value.1 ==> !OccursAt(text, close, q)
    ensures forall p :: from <= p && (r.None? || p < r.value.0) ==> !LazyMatchesAt(text, open, close, p)
  {
    match IndexOfFrom(text, open, from)
    case None => None
    case Some(p) =>
      match IndexOfFrom(text, close, p + |open|)
      case Some(q) => Some((p, q))
      case None => LazyMatchFrom(text, open, close, p + 1)
  }

  /** `c` does not occur in `s`. */
  predicate Lacks(s: string, c: char)
  {
    c !in s
  }

  /** The middle pieces of a five-part concatenation, as slices. */
  lemma {:induction false} FiveSlices(a: string, b: string, c: string, d: string, e: string)
    ensures var t := a + b + c + d + e;
      var i1 := |a|; var i2 := i1 + |b|; var i3 := i2 + |c|; var i4 := i3 + |d|;
      && i4 <= |t| && t[i1..i2] == b && t[i2..i3] == c && t[i3..i4] == d && t[i1..i4] == b + c + d
  {
    var t := a + b + c + d + e;
    assert t == a + (b + c + d) + e;
    assert t == a + b + (c + d + e);
  }

  /** The characters of the first, third and last pieces of a five-part concatenation. */
  lemma {:induction false} FiveChars(a: string, b: string, c: string, d: string, e: string)
    ensures var t := a + b + c + d + e;
      var i2 := |a| + |b|; var i3 := i2 + |c|; var i4 := i3 + |d|;
      && (forall i :: 0 <= i < |a| ==> t[i] == a[i])
      && (forall i :: i2 <= i < i3 ==> t[i] == c[i - i2])
      && (forall i :: i4 <= i < |t| ==> t[i] == e[i - i4])
  {
  }

  /** An occurrence fixes the characters it covers. */
  lemma {:induction false} OccursAtChar(text: string, pat: string, i: int, k: int)
    requires OccursAt(text, pat, i) && 0 <= k < |pat|
    ensures text[i + k] == pat[k]
  {
    assert text[i..i + |pat|][k] == text[i + k];
  }

  /** A differing character rules an occurrence out. */
  lemma {:induction false} NoOccurrenceAt(text: string, pat: string, i: int, k: int)
    requires 0 <= k < |pat|
    requires 0 <= i + k < |text| ==> text[i + k] != pat[k]
    ensures !OccursAt(text, pat, i)
  {
    if 0 <= i && i + |pat| <= |text| {
      assert text[i..i + |pat|][k] == text[i + k];
    }
  }

  /** `IndexOfFrom` finds an occurrence when none precedes it. */
  lemma {:induction false} IndexOfFromFinds(text: string, pat: string, from: nat, x: nat)
    requires from <= x && OccursAt(text, pat, x)
    requires forall j :: from <= j < x ==> !OccursAt(text, pat, j)
    ensures IndexOfFrom(text, pat, from) == Some(x)
  {
  }

  /** `LazyMatchFrom` reports `(p, q)` when `open` first occurs at `p` and
      `close` first occurs at `q` after it. */
  lemma {:induction false} LazyMatchFinds(text: string, open: string, close: string, p: nat, q: nat)
    requires |open| > 0 && p + |open| <= q
    requires OccursAt(text, open, p) && OccursAt(text, close, q)
    requires forall j :: 0 <= j < p ==> !OccursAt(text, open, j)
    requires forall j :: p + |open| <= j < q ==> !OccursAt(text, close, j)
    ensures LazyMatchFrom(text, open, close, 0) == Some((p, q))
  {
    IndexOfFromFinds(text, open, 0, p);
    IndexOfFromFinds(text, close, p + |open|, q);
    assert IndexOfFrom(text, open, 0) == Some(p);
    assert IndexOfFrom(text, close, p + |open|) == Some(q);
  }
}

=== FILE: types.dfy ===
/** The record types every other module works on (types.ts). */
module Types {
  import opened Wrappers

  /** The four lead statuses of the `LeadStatus` enum. */
  datatype LeadStatus = Discovered | Enriching | Completed | Failed

  /** The string value the enum member carries, which is also the
      value stored in `Lead.status` and written to the CSV export. */
  function StatusValue(s: LeadStatus): string
  {
    match s
    case Discovered => "discovered"
    case Enriching => "enriching"
    case Completed => "completed"
    case Failed => "failed"
  }

  /** The inverse of `StatusValue`: the enum member a status string
      names, if any (the `Lead.status` union type admits exactly these). */
  function ParseStatus(t: string): (r: Option<LeadStatus>)
    ensures r.Some? <==> t in {"discovered", "enriching", "completed", "failed"}
    ensures r.Some? ==> StatusValue(r.value) == t
  {
    if t == "discovered" then Some(Discovered)
    else if t == "enriching" then Some(Enriching)
    else if t == "completed" then Some(Completed)
    else if t == "failed" then Some(Failed)
    else None
  }

  /** The enum-to-string map is a bijection onto the four strings of the
      `Lead.status` union type. */
  lemma {:induction false} StatusValueBijection(s: LeadStatus, u: LeadStatus)
    ensures ParseStatus(StatusValue(s)) == Some(s)
    ensures StatusValue(s) == StatusValue(u) ==> s == u
  {
    match s
    case Discovered =>
    case Enriching =>
    case Completed =>
    case Failed =>
  }

  /** A lead: `id`, `name` and `address` are mandatory, every other field
      except `status` may be absent. */
  datatype Lead = Lead(
    id: string,
    name: string,
    address: string,
    placeId: Option<string>,
    website: Option<string>,
    phone: Option<string>,
    email: Option<string>,
    owner: Option<string>,
    status: LeadStatus,
    sourceUrl: Option<string>,
    notes: Option<string>)

  /** JavaScript truthiness of a `string | undefined`: present and non-empty. */
  predicate Truthy(o: Option<string>)
  {
    o.Some? && o.value != ""
  }

  /** JavaScript's `o || fallback` on a `string | undefined`. */
  function Or(o: Option<string>, fallback: string): (r: string)
    ensures Truthy(o) ==> r == o.value
    ensures !Truthy(o) ==> r == fallback
  {
    if o.Some? && o.value != "" then o.value else fallback
  }

  /** A status from which an enrichment may be started: the bulk run
      selects these, and the table offers a per-row action for these. */
  predicate Pending(l: Lead)
  {
    l.status == Discovered || l.status == Failed
  }

  /** No two leads of the collection share an `id`. */
  predicate UniqueIds(leads: seq<Lead>)
  {
    forall i, j :: 0 <= i < j < |leads| ==> leads[i].id != leads[j].id
  }
}

=== FILE: wrappers.dfy ===
/** Failure-carrying wrappers shared by every module of the model. */
module Wrappers {

  /** An optional value: `None` stands for JavaScript's `undefined`. */
  datatype Option<+T> = None | Some(value: T)

  /** The outcome of an operation that may throw: `Failure` is a rejected promise. */
  datatype Result<+R, +E> = Success(value: R) | Failure(error: E)
}
